=== FILE: README.md ===
# Drawing sandbox: path tessellation and buffer bookkeeping

A Dafny model of the drawing core of the sandbox. The user clicks points into
polygonal paths. Each point becomes a small disc and each pair of consecutive
points becomes a stroke quad. A cursor disc tracks the pointer.

The model covers:

- the path list, a sequence of shapes, each a sequence of points (`Tessellation`);
- the disc emitter `fill_buffer_with_a_point` and the stroke emitter `draw_line` (`Geometry`);
- the imperative loops of `update_points`, with their running vertex counter (a u16 in the source, an unbounded natural here) (`Rebuild`);
- the keep-or-reallocate test of the GPU buffers and the index ranges of `draw` (`Buffers`);
- the `ui::State` wrapper: pixel → device mapping, aspect ratio, check-then-write `update`, delegations (`Ui`);
- the window-event handler `State::input` (`Input`).

Coordinates that the program computes with `sin`, `cos` and `atan` are kept
symbolic. A `Coord` records the trigonometric function, the angle, the radius
and the base coordinate it is added to. So the model tracks where every float
comes from, not its value.

`Tessellation.Valid` is the invariant every operation keeps:

- the path list is never empty;
- only its last shape may be empty;
- vertices and indices are empty together;
- once geometry exists, it starts with the disc at the current cursor;
- both array lengths are even;
- every index lies below the vertex count.

`Tessellation.Synced` says that the geometry after the cursor prefix is exactly
the tessellation of the path list.

`src/ui/mod.rs` and `src/main.rs` call some functions with arguments that `src/ui/ui.rs` and `src/ui/mod.rs` do not take. The model follows the callee's signature:

- src/ui/mod.rs:41 passes a ratio to `update_cursor`, and src/ui/mod.rs:44 passes a fill flag to `new_path`. Neither function takes that argument in src/ui/ui.rs:166 or src/ui/ui.rs:127. The model drops both arguments. Pressing `f` therefore behaves exactly like pressing `z` (`Input.FillKeyIsNewPath`).
- src/main.rs:110 passes an extra `info` argument to an `update` that takes only the surface (src/ui/mod.rs:27). The model ignores it.

The code has none of the following, and neither does the model:

- an optional cursor, with no disc drawn while it is absent;
- a fill flag on each shape, with fan triangulation of filled shapes;
- a closing stroke for finished shapes.

## Model

| member | source | states |
|---|---|---|
| Geometry.RimFan | src/ui/ui.rs:151-160 | Loop iterations i..n-1 of the disc emitter push n-i rim vertices and n-i triangles. Rim vertex i+1+k sits at angle step i+k, and triangle i-1+k is (origin, origin+i+k, origin+i+k+1). |
| Geometry.FillBufferWithAPoint | src/ui/ui.rs:142-164 | Appends only. It adds n+1 vertices (2n+2 floats) and 3n indices. The vertices are the centre, then rim points at angles 0, 2π/n, …, each offset by sin on x and cos on y. The triangles are (o, o+i, o+i+1) for i in 1..n-1, closed by (o, o+n, o+1). Every index lies in [o, o+n]. |
| Geometry.DrawLine | src/ui/utils.rs:5-32 | Appends only. It adds 4 vertices (8 floats) and 6 indices. The vertices are p1+o1, p1+o2, p2+o1, p2+o2, with one offset pair computed once from (p1, p2). The indices are o, o+1, o+2, o+1, o+2, o+3, so all lie in [o, o+3]. |
| Geometry.DrawLineFitsU16 | src/ui/utils.rs:24-30 | If origin + 3 fits in a u16, none of the six additions overflows and every pushed index fits in a u16. |
| Geometry.FillBufferFitsU16 | src/ui/ui.rs:153-163 | If origin + n fits in a u16, every index the disc pushes fits in a u16. |
| Tessellation.Discs | src/ui/ui.rs:204-210 | One disc per point: 14 floats and 18 indices each. Every appended index lies in [origin, origin + 7·points). |
| Tessellation.Quads | src/ui/ui.rs:216-245 | One stroke quad per segment: 8 floats and 6 indices each. Every appended index lies in [origin, origin + 4·segments). |
| Tessellation.Tessellate | src/ui/ui.rs:199-246 | Discs, then quads, stacked after the cursor prefix. The prefix is kept, the vertex count becomes `VertexCount(points)`, and every appended index is at least n+1 and below the vertex count. |
| Tessellation.PadEven | src/ui/ui.rs:248-250 | The result has even length. It extends the input by at most one element, and that element is 0. |
| Tessellation.Init | src/ui/ui.rs:280-289 | The initial state is valid. It has one empty shape and no geometry. |
| Tessellation.UpdatePoints | src/ui/ui.rs:191-251 | With no indices, nothing changes. Otherwise the cursor prefix is kept and the rest is rebuilt from the path list (`Synced`). Afterwards the vertex count is `VertexCount(points)`, the index count is even, every index past the prefix is below the vertex count, and the cursor, paths and buffers are unchanged. |
| Tessellation.UpdateCursor | src/ui/ui.rs:166-189 | The cursor becomes (x, y). With no indices, the disc is appended. Otherwise only the first 14 floats and 18 indices are overwritten, and every later element is kept. The index count ends even, and a pad of at most one element, a 0, is added. |
| Tessellation.PushPoint | src/ui/ui.rs:123-126 | The cursor is appended to the last shape. Every other shape, the cursor and both buffers are kept. The geometry is re-synced once it exists; otherwise the arrays are unchanged. |
| Tessellation.NewPath | src/ui/ui.rs:127-132 | An empty shape is appended exactly when the last shape is non-empty; otherwise the state is unchanged. Geometry, cursor and buffers are kept. |
| Tessellation.DeletePath | src/ui/ui.rs:133-140 | The path list becomes `RemainingShapes`, and the cursor and buffers are kept. The geometry is re-synced once it exists; otherwise the arrays are unchanged. |
| Tessellation.Draw | src/ui/ui.rs:56-69 | No draw call iff the index buffer is smaller than one u16. Otherwise the red cursor range [0, 3n) is drawn, then the green path range from 3n to min(index count, buffer size / 2). |
| Tessellation.CheckBuffer | src/ui/ui.rs:88-100 | With the corrected test, afterwards the vertex buffer holds at least the vertex bytes. It never shrinks, and nothing else changes. |
| Tessellation.CheckIndexBuffer | src/ui/ui.rs:101-113 | The same guarantee for the index buffer and the index bytes. |
| Buffers.Write | src/ui/mod.rs:29 | Writing at offset 0 keeps the size. The buffer then starts with the contents, and stale elements past them are kept. |
| Buffers.ReserveAsWritten | src/ui/ui.rs:88-100 | The test as written: keep the buffer iff size ≥ width × byte length; otherwise replace it by a buffer created from the contents. The following write still fits. |
| Buffers.AsWrittenRejectsExactFit | src/ui/ui.rs:89 | A buffer exactly as large as the non-empty contents' bytes passes the intended test but fails the as-written one. |
| Buffers.AsWrittenShrinksRoomyBuffer | src/ui/ui.rs:89 | Sixteen f32 values (64 bytes) fit in a 128-byte buffer, yet the as-written test replaces that buffer by a 64-byte one. |
| Buffers.Reserve | src/ui/ui.rs:88-100 | The intended test: keep the buffer iff the contents' bytes fit; otherwise replace it by one initialised with the contents. The result holds the bytes and is never smaller. |
| Buffers.ReserveSettles | src/ui/ui.rs:88-113 | Once reserved and written, a buffer is kept by every later check whose contents are no longer. |
| Buffers.GrowthScenario | src/ui/ui.rs:88-100 | An empty buffer grows to the created size. A buffer with room to spare is written in place and keeps its capacity. |
| Buffers.DrawCalls | src/ui/ui.rs:56-69 | No draw when the buffer holds no whole u16. Otherwise there are exactly two draws: the cursor range [0, 3n) in red, then the path range from 3n to min(index count, capacity) in green. |
| Buffers.DrawPathRangeUnchecked | src/ui/ui.rs:68 | The path range's end is not checked against its start. A 4-byte index buffer yields the reversed range [18, 0). |
| PathInvariants.CursorIsolated | src/ui/ui.rs:180-183 | In a valid state with geometry, the first 3n indices reference only the cursor disc's vertices 0..n. |
| PathInvariants.InitValid | src/ui/ui.rs:280-289 | The initial state satisfies the invariant and has exactly one shape. |
| PathInvariants.UpdateCursorKeepsValid | src/ui/ui.rs:166-189 | `update_cursor` keeps the invariant. |
| PathInvariants.UpdatePointsKeepsValid | src/ui/ui.rs:191-251 | `update_points` keeps the invariant: indices stay below the vertex count, the index count stays even, and the prefix stays the cursor disc. |
| PathInvariants.PushPointKeepsValid | src/ui/ui.rs:123-126 | `push_point` keeps the invariant, and afterwards no shape is empty. |
| PathInvariants.NewPathKeepsValid | src/ui/ui.rs:127-132 | `new_path` keeps the invariant. |
| PathInvariants.DeletePathKeepsValid | src/ui/ui.rs:133-140 | `delete_path` keeps the invariant. The shape count becomes 1 if it was 1, and drops by one otherwise. |
| PathInvariants.UpdatePointsIdempotent | src/ui/ui.rs:191-251 | Running `update_points` twice gives the same state as running it once. |
| PathInvariants.FlattenMembers | src/ui/ui.rs:204-210 | A point gets a disc iff it belongs to some shape. |
| PathInvariants.TessellateEmptyTail | src/ui/ui.rs:204-246 | An empty trailing shape adds no disc and no quad. |
| PathInvariants.NewPathAddsNoGeometry | src/ui/mod.rs:43-46 | Rebuilding after `new_path` gives the same vertices and indices as rebuilding the previous path list. |
| PathInvariants.NewPathIdempotent | src/ui/ui.rs:127-132 | A second `new_path` with no point pushed in between changes nothing. |
| PathInvariants.DeleteSoleShapeScenario | src/ui/ui.rs:134-135 | Deleting from a single two-point shape leaves one empty shape. |
| PathInvariants.IndicesFitU16 | src/ui/ui.rs:199-208 | In a synced valid state with at most 65536 vertices, every index fits in a u16. |
| PathInvariants.DrawAfterSync | src/ui/ui.rs:56-69 | If the index buffer mirrors the indices, `draw` issues [0, 3n) and [3n, index count). |
| Rebuild.ShapeDiscs | src/ui/ui.rs:205-209 | The inner disc loop over one shape appends that shape's discs. The counter advances by n+1 per point, ending at 7·(1 + points so far); once the 14-float cursor prefix is present, that is the vertex count. |
| Rebuild.DiscLoop | src/ui/ui.rs:199-210 | The disc loop, with the counter starting at n+1, produces `Discs` over all points, shape after shape. The counter ends at 7·(1 + points). |
| Rebuild.PushQuad | src/ui/ui.rs:217-243 | The inline body of the quad loop emits exactly what `draw_line(pre, cur, …, radius, count)` emits. |
| Rebuild.ShapeQuads | src/ui/ui.rs:217-244 | The inner quad loop over one shape appends one quad per consecutive pair. The counter advances by 4 per quad, ending at origin + 4·pairs so far; once the prefix is present, that is the vertex count. |
| Rebuild.QuadLoop | src/ui/ui.rs:216-245 | The quad loop produces `Quads` over all segments. The counter ends at origin + 4·segments. |
| Rebuild.UpdatePointsLoop | src/ui/ui.rs:191-251 | The loops as written compute exactly `UpdatePoints`. Once the prefix is present, the final counter is half the float count. |
| Ui.Init | src/ui/mod.rs:73-74 | The ratio starts at 16/9, over a valid tessellation state with one empty shape. |
| Ui.ResizeView | src/ui/mod.rs:23-26 | The ratio becomes width / height, and nothing else changes. |
| Ui.PixelToDevice | src/ui/mod.rs:38-40 | y=0 maps to 1 and y=height to −1 (both iff), and y ∈ [0, height] iff the mapped y ∈ [−1, 1]. x=0 maps to −ratio and x=width to ratio. |
| Ui.PixelRoundTrip | src/ui/mod.rs:38-40 | With a non-zero ratio, mapping back from device coordinates recovers the pixel. |
| Ui.UpdateCursor | src/ui/mod.rs:38-42 | Forwards the mapped pixel to the tessellation's `update_cursor`: the cursor becomes that point, the geometry past the cursor prefix and both buffers are kept, paths and ratio are kept, and the invariant is preserved. |
| Ui.NewPath | src/ui/mod.rs:43-46 | The path list becomes `new_path`'s, and the geometry is the one rebuilt from the previous paths. Cursor and buffers are kept, the fill flag has no effect, and the invariant is preserved. |
| Ui.DeletePath | src/ui/mod.rs:47-49 | Forwards to `delete_path`, and the invariant is preserved. |
| Ui.PushPoint | src/ui/mod.rs:50-52 | Forwards to `push_point`, and the invariant is preserved. |
| Ui.Update | src/ui/mod.rs:27-31 | With the corrected keep-or-replace test (`Buffers.Reserve`): each check runs before its write. Afterwards both buffers start with the current vertices and indices, neither has shrunk, and nothing else changes. |
| Ui.UpdateAsWritten | src/ui/mod.rs:27-31 | With the test as written (`Buffers.ReserveAsWritten`): each check runs before its write, both buffers then start with the current vertices and indices, and nothing else changes. The ratio is kept. |
| Input.Init | src/main.rs:27-42 | The handler starts valid: all three positions at the origin, button and Control released, no camera call, one empty shape, ratio 16/9. |
| Input.Input | src/main.rs:61-105 | Every event keeps the invariant. The result is true exactly for z/f/d, cursor moves, left-button events and LControl. An unconsumed event changes nothing, a character key changes only the drawing, and at most one camera call is added. |
| Input.ClickPushesCursor | src/main.rs:87-98 | A left press followed by a left release appends the cursor to the last shape and leaves all other shapes alone. |
| Input.ReleaseInPlace | src/main.rs:92-98 | A left release at the pressed position pushes the cursor point and releases the button; nothing else changes. |
| Input.ReleaseElsewhere | src/main.rs:92-98 | A left release anywhere else only releases the button, whatever came before it. With `ReleaseInPlace`, a release pushes iff `old_pos == track_cursor`. |
| Input.DragPushesNothing | src/main.rs:87-98 | A press, a move to another position and a release leave the path list unchanged. |
| Input.MovePansOnlyWhilePressed | src/main.rs:74-86 | A move sets the cursor to the mapped pixel, and sets `track_cursor` and `last_track` to the position. The camera is called iff the button is held: `move_cam` with Control, `translation` without, starting from the old `last_track`. Nothing else changes: `old_pos`, the flags and the path geometry past the cursor prefix survive the move. |
| Input.FillKeyIsNewPath | src/main.rs:62-69 | `f` and `z` have the same effect. |
| Input.NewPathKey | src/main.rs:62-65 | `z` appends an empty shape iff the last shape is non-empty. Either way the geometry is the one rebuilt from the previous paths. |
| Input.DeleteKey | src/main.rs:70-73 | `d` empties a sole shape, or drops the last one. |
| Input.ControlTracksKey | src/main.rs:99-104 | LControl sets `ctrl` to whether the key is pressed and changes nothing else. Left-button events leave `ctrl` alone. |

## Left out

- Float arithmetic: `sin`, `cos`, `atan` and the angle of `get_radian` are symbolic `Coord`/`Angle` values. Not modelled: the NaN from 0/0 in `get_radian` when two consecutive points are equal (two clicks without moving the pointer, src/main.rs:92-95); the ±∞ a horizontal segment hands to `atan`; and the ∞/NaN of a zero width or height in the pixel mapping and in `resize_view`. The pixel mapping and `Ui.ResizeView` therefore require a non-zero surface size.
- The f64 → f32 casts of pointer positions and the f32 rounding of the ratio: positions and ratio are reals.
- Geometry.DrawLine: `origin` and the indices are unbounded naturals. The u16 wrap or panic of `origin + k` is not modelled; `Geometry.DrawLineFitsU16` states when it cannot happen.
- Geometry.FillBufferWithAPoint: the same for `origin + i as u16`; `Geometry.FillBufferFitsU16` states when every index fits.
- Ui.Update: it is modelled over the corrected test `Buffers.Reserve`, so its "never shrinks" holds only for the corrected program. As written, a buffer can be replaced by a smaller one (`Buffers.AsWrittenShrinksRoomyBuffer`); `Ui.UpdateAsWritten` states what the as-written wrapper still guarantees.
- Tessellation.UpdatePoints: indices are unbounded naturals. The u16 counter's wrap or panic past 65535 is not modelled; `PathInvariants.IndicesFitU16` states when every index fits.
- GPU plumbing: buffer, pipeline and bind-group creation, and the internals of `write_buffer`. The size of a freshly created buffer is a parameter, assumed at least the contents' byte length.
- The wall-clock colour choice at the top of `draw`, whose result is unused; text drawing inside `draw`.
- The colour and transform uniforms and text processing in `update` (src/ui/mod.rs:32-36), and the gallery dialog.
- Camera math: `move_cam` and `translation` are only recorded as calls, with their arguments.
- `main.rs` render and resize. Construction is modelled by `Input.Init`, which takes the surface size and the created buffer sizes as parameters.
- Fill triangulation and closing strokes: not present in the code.
- The ratio argument of the wrapper's `update_cursor` and the fill flag of its `new_path`: the functions they are passed to do not take them.

## Findings

| source | as written | input that shows it | evidently intended | confidence | as-written member | corrected member |
|---|---|---|---|---|---|---|
| src/ui/ui.rs:89, src/ui/ui.rs:102 | `vertices()` and `indices()` already return bytes, and the test multiplies their length by 4 (or 2) again before comparing with the buffer's size | 16 vertex floats (64 bytes) with a 128-byte buffer: 128 < 256, so the buffer is replaced by a 64-byte one. A buffer created at exactly the contents' size is then replaced on every update | keep the buffer iff its size is at least the byte length | medium, not executed | Buffers.ReserveAsWritten, Buffers.AsWrittenRejectsExactFit, Buffers.AsWrittenShrinksRoomyBuffer, Ui.UpdateAsWritten | Buffers.Reserve, Buffers.ReserveSettles, Tessellation.CheckBuffer, Tessellation.CheckIndexBuffer, Ui.Update |

=== FILE: buffers.dfy ===
/**
 GPU-visible buffers and the draw ranges of src/ui/ui.rs.

 A buffer is known by its size in bytes and by the elements written into it
 from offset 0; elements past the last write stay as stale data. Creating a
 buffer is the graphics device's business: the model only assumes that a
 freshly created buffer is at least as large as the contents it is created with.
 */
module Buffers {

  /** Byte width of one vertex coordinate (f32) and of one index (u16). */
  const F32_BYTES: nat := 4
  const U16_BYTES: nat := 2

  datatype Buffer<T> = Buffer(size: nat, data: seq<T>)

  /** Length in bytes of `content` viewed as a byte slice. */
  function ByteLength<T(==)>(content: seq<T>, width: nat): nat
  {
    width * |content|
  }

  /** `b` can take `content` at offset 0 and its first elements are exactly `content`. */
  predicate Mirrors<T(==)>(b: Buffer<T>, content: seq<T>, width: nat)
  {
    ByteLength(content, width) <= b.size && content <= b.data
  }

  /** `queue.write_buffer(b, 0, content)`: overwrite the first elements in place.
      The graphics API rejects a write past the end, hence the precondition. */
  function Write<T(==)>(b: Buffer<T>, content: seq<T>, width: nat): (r: Buffer<T>)
    requires ByteLength(content, width) <= b.size
    ensures r.size == b.size
    ensures Mirrors(r, content, width)
    ensures |r.data| == if |b.data| < |content| then |content| else |b.data|
    ensures forall k :: |content| <= k < |b.data| ==> r.data[k] == b.data[k]
  {
    Buffer(b.size, content + if |content| < |b.data| then b.data[|content|..] else [])
  }

  /** The keep-or-replace test of `check_buffer` / `check_index_buffer` as
      written: the byte length of the contents is multiplied by the element width
      a second time before being compared with the buffer's size. */
  predicate KeepsAsWritten<T(==)>(size: nat, content: seq<T>, width: nat)
  {
    size >= width * ByteLength(content, width)
  }

  /** The evidently intended test: the contents' bytes fit in the buffer. */
  predicate Keeps<T(==)>(size: nat, content: seq<T>, width: nat)
  {
    size >= ByteLength(content, width)
  }

  /** `check_buffer` / `check_index_buffer` exactly as written. When the buffer is
      judged too small it is replaced by a new one, of `created` bytes, initialised
      with `content`. The write that follows still fits. */
  function ReserveAsWritten<T(==)>(b: Buffer<T>, content: seq<T>, width: nat, created: nat): (r: Buffer<T>)
    requires ByteLength(content, width) <= created
    ensures ByteLength(content, width) <= r.size
    ensures KeepsAsWritten(b.size, content, width) ==> r == b
    ensures !KeepsAsWritten(b.size, content, width) ==> r == Buffer(created, content)
  {
    if KeepsAsWritten(b.size, content, width) then b
    else Buffer(created, content)
  }

  /** A buffer created at exactly the contents' size is judged too small by the
      as-written test on the next check with the same contents, although the
      contents fit: every update reallocates it. */
  lemma AsWrittenRejectsExactFit<T>(content: seq<T>, width: nat)
    requires |content| > 0 && width >= 2
    ensures Keeps(ByteLength(content, width), content, width)
    ensures !KeepsAsWritten(ByteLength(content, width), content, width)
  {
    var bytes := ByteLength(content, width);
    assert bytes >= 2;
    assert width * bytes >= 2 * bytes by {
      MulMonotone(bytes, 2, width);
    }
  }

  /** The intended check: keep the buffer exactly when the contents' bytes fit,
      otherwise replace it by a new one initialised with `content`. Capacity never
      shrinks, and a buffer created at exactly the contents' size is kept. */
  function Reserve<T(==)>(b: Buffer<T>, content: seq<T>, width: nat, created: nat): (r: Buffer<T>)
    requires ByteLength(content, width) <= created
    ensures ByteLength(content, width) <= r.size
    ensures r.size >= b.size
    ensures Keeps(b.size, content, width) ==> r == b
    ensures !Keeps(b.size, content, width) ==> r == Buffer(created, content)
    ensures Keeps(r.size, content, width)
  {
    if Keeps(b.size, content, width) then b
    else Buffer(created, content)
  }

  /** Under the intended check a buffer, once reserved and written, is kept by
      every later check whose contents are no longer: no reallocation unless the
      contents grow. */
  lemma ReserveSettles<T>(b: Buffer<T>, content: seq<T>, later: seq<T>, width: nat, created: nat, created': nat)
    requires ByteLength(content, width) <= created
    requires |later| <= |content|
    requires ByteLength(later, width) <= created'
    ensures var kept := Write(Reserve(b, content, width, created), content, width);
            Reserve(kept, later, width, created') == kept
  {
    var kept := Write(Reserve(b, content, width, created), content, width);
    assert ByteLength(later, width) <= ByteLength(content, width) by {
      MulMonotone(width, |later|, |content|);
    }
  }

  /** Growth from nothing allocates the size the device gives for the contents,
      and a buffer with room to spare is written in place, capacity unchanged. */
  lemma GrowthScenario<T>(content: seq<T>, stale: seq<T>)
    requires |content| == 16
    ensures Reserve(Buffer(0, []), content, F32_BYTES, 64) == Buffer(64, content)
    ensures Write(Reserve(Buffer(128, stale), content, F32_BYTES, 64), content, F32_BYTES).size == 128
  {
  }

  /** The same two cases under the as-written test: the buffer with room to spare
      for 64 bytes of f32 contents is judged too small and replaced by a 64-byte
      one, so the capacity shrinks from 128 to 64. */
  lemma AsWrittenShrinksRoomyBuffer<T>(content: seq<T>, stale: seq<T>)
    requires |content| == 16
    ensures Keeps(128, content, F32_BYTES)
    ensures ReserveAsWritten(Buffer(128, stale), content, F32_BYTES, 64) == Buffer(64, content)
  {
  }

  lemma MulMonotone(w: nat, a: nat, b: nat)
    requires a <= b
    ensures w * a <= w * b
  {
    assert w * b == w * a + w * (b - a);
  }

  // ---------------------------------------------------------------------------
  // Draw ranges
  // ---------------------------------------------------------------------------

  /** The two colour bindings `draw` chooses between. */
  datatype Color = Red | Green

  /** One `draw_indexed(first..end)` with the bind group of `color`; `end` may lie
      below `first`, since the source does not check it. */
  datatype DrawCall = DrawIndexed(color: Color, first: nat, end: int)

  function Min(a: int, b: int): int
  {
    if a <= b then a else b
  }

  /** The index-range logic of `draw`: nothing when the index buffer holds no
      whole u16; otherwise the cursor range [0, cursorIndices) in red and the path
      range from cursorIndices up to the smaller of the logical index count and the
      buffer's capacity in indices, in green. */
  function DrawCalls(indexCount: nat, indexBufferBytes: nat, cursorIndices: nat): (calls: seq<DrawCall>)
    ensures calls == [] <==> indexBufferBytes < U16_BYTES
    ensures calls != [] ==> |calls| == 2
    ensures calls != [] ==> calls[0] == DrawIndexed(Red, 0, cursorIndices)
    ensures calls != [] ==> calls[1].color == Green && calls[1].first == cursorIndices
    ensures calls != [] ==> calls[1].end <= indexCount && U16_BYTES * calls[1].end <= indexBufferBytes
    ensures calls != [] ==> calls[1].end == indexCount || calls[1].end == indexBufferBytes / U16_BYTES
  {
    var capacity := indexBufferBytes / U16_BYTES;
    if capacity > 0 then
      [DrawIndexed(Red, 0, cursorIndices), DrawIndexed(Green, cursorIndices, Min(indexCount, capacity))]
    else []
  }

  /** The upper end of the path range is not checked against its start: a buffer
      that holds fewer indices than the cursor disc yields a reversed range. */
  lemma DrawPathRangeUnchecked()
    ensures var calls := DrawCalls(0, 4, 18);
            |calls| == 2 && calls[1].end < calls[1].first
  {
  }
}

=== FILE: geometry.dfy ===
/**
 Geometry primitives of the drawing sandbox: the point-disc emitter
 (`fill_buffer_with_a_point` in src/ui/ui.rs) and the stroke-quad emitter
 (`draw_line` in src/ui/utils.rs).

 Both append to a pair of growable arrays: a flat array of f32 coordinates
 (x, y interleaved) and an array of triangle corner indices. Coordinates are
 kept as symbolic terms: a coordinate copied verbatim, or `trig(angle) * radius
 + base`, so the model records where each trigonometric offset is added
 without doing any floating-point arithmetic.
 */
module Geometry {

  /** A 2D point, one `(f32, f32)` pair of the source. */
  datatype Point = Point(x: real, y: real)

  /** A consecutive pair of points of one shape. */
  datatype Segment = Segment(from: Point, to: Point)

  datatype Trig = Sin | Cos

  datatype Turn = Plus | Minus

  /** The angles handed to `sin`/`cos`, as terms. */
  datatype Angle =
    | Zero                                      // the literal 0.0 of a disc's first rim vertex
    | Step(i: nat, n: nat)                      // i * (2π / n): rim vertex i of an n-segment disc
    | Normal(from: Point, to: Point, turn: Turn) // atan((to.x - from.x) / (to.y - from.y)) ± π/2

  /** One f32 of the vertex array. */
  datatype Coord =
    | Exact(value: real)
    | Offset(trig: Trig, angle: Angle, radius: real, base: real)  // trig(angle) * radius + base

  /** The vertex and index arrays an emitter writes into. */
  datatype Mesh = Mesh(vertices: seq<Coord>, indices: seq<nat>)

  const Empty: Mesh := Mesh([], [])

  function Concat(a: Mesh, b: Mesh): Mesh
  {
    Mesh(a.vertices + b.vertices, a.indices + b.indices)
  }

  /** `b` is `a` with elements pushed at the end of both arrays. */
  predicate Extends(a: Mesh, b: Mesh)
  {
    a.vertices <= b.vertices && a.indices <= b.indices
  }

  function AxisBase(p: Point, axis: nat): real
  {
    if axis == 0 then p.x else p.y
  }

  function AxisTrig(axis: nat): Trig
  {
    if axis == 0 then Sin else Cos
  }

  // ---------------------------------------------------------------------------
  // Point disc
  // ---------------------------------------------------------------------------

  /** Highest index offset a disc of `n` segments uses: its rim has `Span(n)`
      vertices after the centre (for n = 0 the first rim vertex is still pushed). */
  function Span(n: nat): nat
  {
    if n == 0 then 1 else n
  }

  /** Reference layout of a disc's indices: corner `c` of triangle `t`.
      Triangles 0 .. n-2 are (centre, rim t+1, rim t+2); the last one closes the
      fan as (centre, rim n, rim 1). */
  function FanCorner(origin: nat, n: nat, t: nat, c: nat): nat
    requires c < 3
  {
    if t + 1 < n then [origin, origin + t + 1, origin + t + 2][c]
    else [origin, origin + n, origin + 1][c]
  }

  /** Reference layout of a disc's vertices: coordinate `axis` of vertex `v`.
      Vertex 0 is the centre, vertex 1 the rim point at angle 0, vertex v ≥ 2
      the rim point at angle (v - 1) * 2π / n. */
  function DiscCoord(center: Point, radius: real, n: nat, v: nat, axis: nat): Coord
    requires axis < 2
  {
    var base := AxisBase(center, axis);
    if v == 0 then Exact(base)
    else if v == 1 then Offset(AxisTrig(axis), Zero, radius, base)
    else Offset(AxisTrig(axis), Step(v - 1, n), radius, base)
  }

  /** Iterations i .. n-1 of the disc loop: each pushes one triangle and one rim vertex. */
  function RimFan(origin: nat, center: Point, radius: real, n: nat, i: nat): (m: Mesh)
    requires 1 <= i
    ensures |m.vertices| == 2 * (if i < n then n - i else 0)
    ensures |m.indices| == 3 * (if i < n then n - i else 0)
    ensures forall k :: 0 <= k < |m.vertices| ==>
              m.vertices[k] == DiscCoord(center, radius, n, i + 1 + k / 2, k % 2)
    ensures forall k :: 0 <= k < |m.indices| ==>
              m.indices[k] == FanCorner(origin, n, i - 1 + k / 3, k % 3)
    decreases n - i
  {
    if n <= i then Empty
    else
      var step := Mesh([Offset(Sin, Step(i, n), radius, center.x), Offset(Cos, Step(i, n), radius, center.y)],
                       [origin, origin + i, origin + i + 1]);
      var rest := RimFan(origin, center, radius, n, i + 1);
      RimStep(origin, center, radius, n, i, rest.vertices, rest.indices);
      Concat(step, rest)
  }

  /** Iteration i of the disc loop followed by the later ones keeps the
      `DiscCoord` and `FanCorner` layouts. */
  lemma RimStep(origin: nat, center: Point, radius: real, n: nat, i: nat, rv: seq<Coord>, ri: seq<nat>)
    requires 1 <= i < n
    requires forall k :: 0 <= k < |rv| ==> rv[k] == DiscCoord(center, radius, n, i + 2 + k / 2, k % 2)
    requires forall k :: 0 <= k < |ri| ==> ri[k] == FanCorner(origin, n, i + k / 3, k % 3)
    ensures var v := [Offset(Sin, Step(i, n), radius, center.x), Offset(Cos, Step(i, n), radius, center.y)] + rv;
            forall k :: 0 <= k < |v| ==> v[k] == DiscCoord(center, radius, n, i + 1 + k / 2, k % 2)
    ensures var f := [origin, origin + i, origin + i + 1] + ri;
            forall k :: 0 <= k < |f| ==> f[k] == FanCorner(origin, n, i - 1 + k / 3, k % 3)
  {
    RimVertexStep(center, radius, n, i, rv);
    RimIndexStep(origin, n, i, ri);
  }

  lemma RimVertexStep(center: Point, radius: real, n: nat, i: nat, rv: seq<Coord>)
    requires 1 <= i
    requires forall k :: 0 <= k < |rv| ==> rv[k] == DiscCoord(center, radius, n, i + 2 + k / 2, k % 2)
    ensures var v := [Offset(Sin, Step(i, n), radius, center.x), Offset(Cos, Step(i, n), radius, center.y)] + rv;
            forall k :: 0 <= k < |v| ==> v[k] == DiscCoord(center, radius, n, i + 1 + k / 2, k % 2)
  {
    var v := [Offset(Sin, Step(i, n), radius, center.x), Offset(Cos, Step(i, n), radius, center.y)] + rv;
    forall k | 2 <= k < |v|
      ensures v[k] == DiscCoord(center, radius, n, i + 1 + k / 2, k % 2)
    {
      assert v[k] == rv[k - 2];
      assert i + 2 + (k - 2) / 2 == i + 1 + k / 2 && (k - 2) % 2 == k % 2;
    }
  }

  lemma RimIndexStep(origin: nat, n: nat, i: nat, ri: seq<nat>)
    requires 1 <= i < n
    requires forall k :: 0 <= k < |ri| ==> ri[k] == FanCorner(origin, n, i + k / 3, k % 3)
    ensures var f := [origin, origin + i, origin + i + 1] + ri;
            forall k :: 0 <= k < |f| ==> f[k] == FanCorner(origin, n, i - 1 + k / 3, k % 3)
  {
    var f := [origin, origin + i, origin + i + 1] + ri;
    forall k | 3 <= k < |f|
      ensures f[k] == FanCorner(origin, n, i - 1 + k / 3, k % 3)
    {
      assert f[k] == ri[k - 3];
      assert i + (k - 3) / 3 == i - 1 + k / 3 && (k - 3) % 3 == k % 3;
    }
  }

  /** Appends a disc of `n` segments around `center` whose indices start at `origin`:
      Span(n) + 1 vertices and 3 * Span(n) indices, laid out as `DiscCoord` and
      `FanCorner` describe; nothing already in `buffer` changes. */
  function FillBufferWithAPoint(buffer: Mesh, origin: nat, center: Point, radius: real, n: nat): (r: Mesh)
    ensures Extends(buffer, r)
    ensures |r.vertices| == |buffer.vertices| + 2 * (Span(n) + 1)
    ensures |r.indices| == |buffer.indices| + 3 * Span(n)
    ensures forall k :: |buffer.vertices| <= k < |r.vertices| ==>
              r.vertices[k] == DiscCoord(center, radius, n, (k - |buffer.vertices|) / 2, (k - |buffer.vertices|) % 2)
    ensures forall k :: |buffer.indices| <= k < |r.indices| ==>
              r.indices[k] == FanCorner(origin, n, (k - |buffer.indices|) / 3, (k - |buffer.indices|) % 3)
    ensures forall k :: |buffer.indices| <= k < |r.indices| ==> origin <= r.indices[k] <= origin + Span(n)
  {
    var d := DiscMesh(origin, center, radius, n);
    ShiftedDisc(buffer, d, origin, center, radius, n);
    Concat(buffer, d)
  }

  /** The disc on its own: the centre, the rim's first point, the rest of the
      rim and the closing triangle, laid out as `DiscCoord` and `FanCorner` describe. */
  function DiscMesh(origin: nat, center: Point, radius: real, n: nat): (d: Mesh)
    ensures |d.vertices| == 2 * (Span(n) + 1) && |d.indices| == 3 * Span(n)
    ensures forall j :: 0 <= j < |d.vertices| ==> d.vertices[j] == DiscCoord(center, radius, n, j / 2, j % 2)
    ensures forall j :: 0 <= j < |d.indices| ==> d.indices[j] == FanCorner(origin, n, j / 3, j % 3)
    ensures forall j :: 0 <= j < |d.indices| ==> origin <= d.indices[j] <= origin + Span(n)
  {
    var rim := RimFan(origin, center, radius, n, 1);
    var corners := [Exact(center.x), Exact(center.y),
                    Offset(Sin, Zero, radius, center.x), Offset(Cos, Zero, radius, center.y)] + rim.vertices;
    var fan := rim.indices + [origin, origin + n, origin + 1];
    DiscVertexLayout(center, radius, n, rim.vertices);
    DiscIndexLayout(origin, n, rim.indices);
    Mesh(corners, fan)
  }

  /** A disc appended after `buffer` keeps its layout and bounds, shifted by the
      lengths of `buffer`'s arrays. */
  lemma ShiftedDisc(buffer: Mesh, d: Mesh, origin: nat, center: Point, radius: real, n: nat)
    requires d == DiscMesh(origin, center, radius, n)
    ensures var r := Concat(buffer, d);
            && Extends(buffer, r)
            && |r.vertices| == |buffer.vertices| + 2 * (Span(n) + 1)
            && |r.indices| == |buffer.indices| + 3 * Span(n)
            && (forall k :: |buffer.vertices| <= k < |r.vertices| ==>
                  r.vertices[k] == DiscCoord(center, radius, n, (k - |buffer.vertices|) / 2, (k - |buffer.vertices|) % 2))
            && (forall k :: |buffer.indices| <= k < |r.indices| ==>
                  r.indices[k] == FanCorner(origin, n, (k - |buffer.indices|) / 3, (k - |buffer.indices|) % 3))
            && (forall k :: |buffer.indices| <= k < |r.indices| ==> origin <= r.indices[k] <= origin + Span(n))
  {
    var r := Concat(buffer, d);
    forall k | |buffer.vertices| <= k < |r.vertices|
      ensures r.vertices[k] == DiscCoord(center, radius, n, (k - |buffer.vertices|) / 2, (k - |buffer.vertices|) % 2)
    {
      assert r.vertices[k] == d.vertices[k - |buffer.vertices|];
    }
    forall k | |buffer.indices| <= k < |r.indices|
      ensures r.indices[k] == FanCorner(origin, n, (k - |buffer.indices|) / 3, (k - |buffer.indices|) % 3)
      ensures origin <= r.indices[k] <= origin + Span(n)
    {
      assert r.indices[k] == d.indices[k - |buffer.indices|];
    }
  }

  /** The centre, the rim point at angle 0, then the rim `RimFan` pushes: the
      disc's vertices in `DiscCoord` order. */
  lemma DiscVertexLayout(center: Point, radius: real, n: nat, rim: seq<Coord>)
    requires forall k :: 0 <= k < |rim| ==> rim[k] == DiscCoord(center, radius, n, 2 + k / 2, k % 2)
    ensures var v := [Exact(center.x), Exact(center.y),
                      Offset(Sin, Zero, radius, center.x), Offset(Cos, Zero, radius, center.y)] + rim;
            forall j :: 0 <= j < |v| ==> v[j] == DiscCoord(center, radius, n, j / 2, j % 2)
  {
    var v := [Exact(center.x), Exact(center.y),
              Offset(Sin, Zero, radius, center.x), Offset(Cos, Zero, radius, center.y)] + rim;
    forall j | 4 <= j < |v|
      ensures v[j] == DiscCoord(center, radius, n, j / 2, j % 2)
    {
      assert v[j] == rim[j - 4];
      assert 2 + (j - 4) / 2 == j / 2 && (j - 4) % 2 == j % 2;
    }
  }

  /** The triangles `RimFan` pushes, then the closing one: the disc's indices in
      `FanCorner` order, all between the centre and the last rim vertex. */
  lemma DiscIndexLayout(origin: nat, n: nat, rim: seq<nat>)
    requires |rim| == 3 * (if 1 < n then n - 1 else 0)
    requires forall k :: 0 <= k < |rim| ==> rim[k] == FanCorner(origin, n, k / 3, k % 3)
    ensures var f := rim + [origin, origin + n, origin + 1];
            && |f| == 3 * Span(n)
            && (forall j :: 0 <= j < |f| ==> f[j] == FanCorner(origin, n, j / 3, j % 3))
            && (forall j :: 0 <= j < |f| ==> origin <= f[j] <= origin + Span(n))
  {
    var f := rim + [origin, origin + n, origin + 1];
    forall j | 0 <= j < |f|
      ensures f[j] == FanCorner(origin, n, j / 3, j % 3)
      ensures origin <= f[j] <= origin + Span(n)
    {
      if j < |rim| {
        assert f[j] == rim[j];
      } else {
        assert j / 3 == Span(n) - 1;
      }
      FanCornerBounds(origin, n, j / 3, j % 3);
    }
  }

  /** Every corner of a disc's fan lies between its centre and its last rim vertex. */
  lemma FanCornerBounds(origin: nat, n: nat, t: nat, c: nat)
    requires t < Span(n) && c < 3
    ensures origin <= FanCorner(origin, n, t, c) <= origin + Span(n)
  {
  }

  // ---------------------------------------------------------------------------
  // Stroke quad
  // ---------------------------------------------------------------------------

  /** Reference layout of a stroke quad's vertices: coordinate `axis` of corner `j`.
      Corners 0, 1 sit on `p1`, corners 2, 3 on `p2`; even corners take the offset
      turned by +π/2, odd ones the offset turned by -π/2, both computed once from (p1, p2). */
  function QuadCorner(p1: Point, p2: Point, radius: real, j: nat, axis: nat): Coord
    requires axis < 2
  {
    var end := if j < 2 then p1 else p2;
    var turn := if j % 2 == 0 then Plus else Minus;
    Offset(AxisTrig(axis), Normal(p1, p2, turn), radius, AxisBase(end, axis))
  }

  /** Appends the quad that strokes p1 → p2: four corner vertices laid out as
      `QuadCorner` describes, and two triangles whose corner c of triangle t is
      origin + t + c, that is (origin, origin+1, origin+2), (origin+1, origin+2, origin+3). */
  function DrawLine(buffer: Mesh, p1: Point, p2: Point, radius: real, origin: nat): (r: Mesh)
    ensures Extends(buffer, r)
    ensures |r.vertices| == |buffer.vertices| + 8
    ensures |r.indices| == |buffer.indices| + 6
    ensures forall k :: |buffer.vertices| <= k < |r.vertices| ==>
              r.vertices[k] == QuadCorner(p1, p2, radius, (k - |buffer.vertices|) / 2, (k - |buffer.vertices|) % 2)
    ensures forall k :: |buffer.indices| <= k < |r.indices| ==>
              r.indices[k] == origin + (k - |buffer.indices|) / 3 + (k - |buffer.indices|) % 3
    ensures forall k :: |buffer.indices| <= k < |r.indices| ==> origin <= r.indices[k] <= origin + 3
  {
    var x1 := Normal(p1, p2, Plus);
    var x2 := Normal(p1, p2, Minus);
    Mesh(buffer.vertices + [Offset(Sin, x1, radius, p1.x), Offset(Cos, x1, radius, p1.y),
                            Offset(Sin, x2, radius, p1.x), Offset(Cos, x2, radius, p1.y),
                            Offset(Sin, x1, radius, p2.x), Offset(Cos, x1, radius, p2.y),
                            Offset(Sin, x2, radius, p2.x), Offset(Cos, x2, radius, p2.y)],
         buffer.indices + [origin, origin + 1, origin + 2,
                           origin + 1, origin + 2, origin + 3])
  }

  /** `draw_line` adds u16 offsets to `origin`: with origin + 3 within u16 range,
      no addition overflows and every index it pushes fits in a u16. */
  lemma DrawLineFitsU16(buffer: Mesh, p1: Point, p2: Point, radius: real, origin: nat)
    requires origin + 3 <= 0xFFFF
    ensures var r := DrawLine(buffer, p1, p2, radius, origin);
            forall k :: |buffer.indices| <= k < |r.indices| ==> r.indices[k] <= 0xFFFF
  {
  }

  /** The same for a disc: with origin + n within u16 range, every index
      `fill_buffer_with_a_point` pushes fits in a u16. */
  lemma FillBufferFitsU16(buffer: Mesh, origin: nat, center: Point, radius: real, n: nat)
    requires origin + Span(n) <= 0xFFFF
    ensures var r := FillBufferWithAPoint(buffer, origin, center, radius, n);
            forall k :: |buffer.indices| <= k < |r.indices| ==> r.indices[k] <= 0xFFFF
  {
  }
}

=== FILE: input.dfy ===
/**
 The window-event state machine of the application (`State::input` in
 src/main.rs). Keys z, f and d edit the path list; a cursor move moves the
 drawing cursor and, while the left button is held, pans the camera; a left
 click that ends where it began appends the cursor to the current path; the
 left Control key toggles the camera mode. The camera itself is outside the
 model: each camera call is recorded, with its arguments, in `camera`.
 */
module Input {
  import Tessellation
  import Ui

  /** A physical pixel position (f64 pair in the source). */
  datatype Position = Position(x: real, y: real)

  datatype ElementState = Pressed | Released

  datatype MouseButton = Left | Right | Middle | OtherButton(id: nat)

  datatype KeyCode = LControl | OtherKey(id: nat)

  datatype Option<T> = None | Some(value: T)

  /** The window events the handler distinguishes; `Unrelated` stands for every
      other kind of event. */
  datatype Event =
    | ReceivedCharacter(c: char)
    | CursorMoved(position: Position)
    | MouseInput(state: ElementState, button: MouseButton)
    | KeyboardInput(keycode: Option<KeyCode>, keyState: ElementState)
    | Unrelated

  /** A camera call of the base shape: `move_cam` while Control is held,
      `translation` otherwise, both from the last tracked position to the new one. */
  datatype CameraCall = MoveCam(from: Position, to: Position) | Translation(from: Position, to: Position)

  datatype App = App(
    ui: Ui.State,
    width: nat,
    height: nat,
    trackCursor: Position,
    oldPos: Position,
    lastTrack: Position,
    pressed: bool,
    ctrl: bool,
    camera: seq<CameraCall>)

  /** The surface has a size and the path model is well formed. */
  predicate Valid(a: App)
  {
    a.width > 0 && a.height > 0 && Tessellation.Valid(a.ui.ui)
  }

  /** `new`: positions at the origin, button and Control released. */
  function Init(width: nat, height: nat, vertexBufferBytes: nat, indexBufferBytes: nat): (a: App)
    requires width > 0 && height > 0
    ensures Valid(a)
    ensures !a.pressed && !a.ctrl && a.camera == []
    ensures a.trackCursor == a.oldPos == a.lastTrack == Position(0.0, 0.0)
    ensures a.ui.ui.points == [[]] && a.ui.ratio == 16.0 / 9.0
  {
    var origin := Position(0.0, 0.0);
    App(Ui.Init(vertexBufferBytes, indexBufferBytes), width, height, origin, origin, origin, false, false, [])
  }

  /** The events `input` reports as consumed. */
  predicate Handles(e: Event)
  {
    match e
    case ReceivedCharacter(c) => c == 'z' || c == 'f' || c == 'd'
    case CursorMoved(_) => true
    case MouseInput(_, button) => button == Left
    case KeyboardInput(keycode, _) => keycode == Some(LControl)
    case Unrelated => false
  }

  /** One event. The boolean is whether the event was consumed; an event that is
      not consumed leaves the state as it was, and every event keeps `Valid`. */
  function Input(a: App, e: Event): (r: (App, bool))
    requires Valid(a)
    ensures Valid(r.0)
    ensures r.1 <==> Handles(e)
    ensures !r.1 ==> r.0 == a
    ensures e.ReceivedCharacter? ==> r.0 == a.(ui := r.0.ui)
    ensures r.0.width == a.width && r.0.height == a.height
    ensures a.camera <= r.0.camera && |r.0.camera| <= |a.camera| + 1
  {
    match e
    case ReceivedCharacter(c) =>
      if c == 'z' then (a.(ui := Ui.NewPath(a.ui, false)), true)
      else if c == 'f' then (a.(ui := Ui.NewPath(a.ui, true)), true)
      else if c == 'd' then (a.(ui := Ui.DeletePath(a.ui)), true)
      else (a, false)
    case CursorMoved(p) =>
      var ui := Ui.UpdateCursor(a.ui, a.width, a.height, p.x, p.y);
      var camera :=
        if !a.pressed then a.camera
        else if a.ctrl then a.camera + [MoveCam(a.lastTrack, p)]
        else a.camera + [Translation(a.lastTrack, p)];
      (a.(ui := ui, trackCursor := p, camera := camera, lastTrack := p), true)
    case MouseInput(state, button) =>
      if button != Left then (a, false)
      else if state == Pressed then (a.(oldPos := a.trackCursor, pressed := true), true)
      else
        var ui := if a.oldPos == a.trackCursor then Ui.PushPoint(a.ui) else a.ui;
        (a.(ui := ui, pressed := false), true)
    case KeyboardInput(keycode, state) =>
      if keycode == Some(LControl) then (a.(ctrl := state == Pressed), true)
      else (a, false)
    case Unrelated => (a, false)
  }

  /** Pressing and releasing the left button without moving appends the cursor
      to the last path and changes no other path. */
  lemma ClickPushesCursor(a: App)
    requires Valid(a)
    ensures var pressed := Input(a, MouseInput(Pressed, Left)).0;
            var released := Input(pressed, MouseInput(Released, Left)).0;
            var before := a.ui.ui.points;
            var after := released.ui.ui.points;
            && |after| == |before|
            && after[..|before| - 1] == before[..|before| - 1]
            && after[|before| - 1] == before[|before| - 1] + [a.ui.ui.cursor]
            && !released.pressed
            && released.camera == a.camera
  {
    PressRecordsPosition(a);
    var pressed := a.(oldPos := a.trackCursor, pressed := true);
    ReleaseInPlace(pressed);
  }

  /** A left press remembers where the pointer is and changes nothing else. */
  lemma PressRecordsPosition(a: App)
    requires Valid(a)
    ensures Input(a, MouseInput(Pressed, Left)).0 == a.(oldPos := a.trackCursor, pressed := true)
  {
  }

  /** A left release where the press happened pushes the cursor point. */
  lemma ReleaseInPlace(b: App)
    requires Valid(b) && b.oldPos == b.trackCursor
    ensures Input(b, MouseInput(Released, Left)).0 == b.(ui := Ui.PushPoint(b.ui), pressed := false)
  {
  }

  /** A left release anywhere else pushes nothing: it only releases the button,
      whatever happened since the press (any number of moves, or no press at all). */
  lemma ReleaseElsewhere(b: App)
    requires Valid(b) && b.oldPos != b.trackCursor
    ensures Input(b, MouseInput(Released, Left)).0 == b.(pressed := false)
  {
  }

  /** A press, a move to a different position and a release leave the path list
      as it was: a drag is not a click. */
  lemma DragPushesNothing(a: App, p: Position)
    requires Valid(a) && p != a.trackCursor
    ensures var pressed := Input(a, MouseInput(Pressed, Left)).0;
            var moved := Input(pressed, CursorMoved(p)).0;
            var released := Input(moved, MouseInput(Released, Left)).0;
            && released.ui.ui.points == a.ui.ui.points
            && !released.pressed
  {
  }

  /** A cursor move always moves the drawing cursor to the mapped position and
      records the position as both tracked and last tracked. It asks the camera
      to follow exactly when the button is held: `move_cam` with Control held,
      `translation` without, from the previous tracked position. */
  lemma MovePansOnlyWhilePressed(a: App, p: Position)
    requires Valid(a)
    ensures var r := Input(a, CursorMoved(p)).0;
            && r.ui.ui.cursor == Ui.PixelToDevice(a.width, a.height, a.ui.ratio, p.x, p.y)
            && r.ui.ui.points == a.ui.ui.points
            && r.trackCursor == p && r.lastTrack == p
            && r.pressed == a.pressed && r.ctrl == a.ctrl
            && (r.camera == a.camera <==> !a.pressed)
            && (a.pressed && a.ctrl ==> r.camera == a.camera + [MoveCam(a.lastTrack, p)])
            && (a.pressed && !a.ctrl ==> r.camera == a.camera + [Translation(a.lastTrack, p)])
            && r == a.(ui := Ui.UpdateCursor(a.ui, a.width, a.height, p.x, p.y),
                       trackCursor := p, lastTrack := p, camera := r.camera)
  {
  }

  /** `f` behaves exactly like `z`: the fill flag is handed to a `new_path` that
      ignores it. */
  lemma FillKeyIsNewPath(a: App)
    requires Valid(a)
    ensures Input(a, ReceivedCharacter('f')) == Input(a, ReceivedCharacter('z'))
  {
  }

  /** `z` on a path list whose last path already is empty changes the path list
      not at all; otherwise it appends one empty path. Either way the geometry
      is the one rebuilt from the paths it had. */
  lemma NewPathKey(a: App)
    requires Valid(a)
    ensures var r := Input(a, ReceivedCharacter('z')).0;
            var before := a.ui.ui.points;
            && (|before[|before| - 1]| == 0 ==> r.ui.ui.points == before)
            && (|before[|before| - 1]| > 0 ==> r.ui.ui.points == before + [[]])
            && r.ui.ui.vertices == Tessellation.UpdatePoints(a.ui.ui).vertices
            && r.ui.ui.indices == Tessellation.UpdatePoints(a.ui.ui).indices
  {
  }

  /** `d` drops the last path, or empties the only one. */
  lemma DeleteKey(a: App)
    requires Valid(a)
    ensures var r := Input(a, ReceivedCharacter('d')).0;
            var before := a.ui.ui.points;
            && (|before| == 1 ==> r.ui.ui.points == [[]])
            && (|before| > 1 ==> r.ui.ui.points == before[..|before| - 1])
  {
  }

  /** The left Control key sets `ctrl` to whether it is down and touches nothing
      else; pressing or releasing the left button leaves `ctrl` alone. */
  lemma ControlTracksKey(a: App, state: ElementState)
    requires Valid(a)
    ensures Input(a, KeyboardInput(Some(LControl), state)).0 == a.(ctrl := state == Pressed)
    ensures Input(a, MouseInput(state, Left)).0.ctrl == a.ctrl
  {
  }
}

=== FILE: path_invariants.dfy ===
/**
 Properties of the path model and of its tessellation (src/ui/ui.rs): every
 operation keeps `Tessellation.Valid`, the cursor disc stays isolated in the
 prefix, rebuilding is idempotent, and an empty trailing shape adds no geometry.
 */
module PathInvariants {
  import opened Geometry
  import opened Tessellation
  import Buffers

  /** The first 3n indices only reference the cursor disc's n + 1 vertices. */
  lemma CursorIsolated(s: State)
    requires Valid(s) && |s.indices| > 0
    ensures forall k :: 0 <= k < DISC_INDICES ==> s.indices[k] < DISC_VERTICES
  {
    var disc := CursorDisc(s.cursor);
    forall k | 0 <= k < DISC_INDICES
      ensures s.indices[k] < DISC_VERTICES
    {
      assert s.indices[k] == s.indices[..DISC_INDICES][k] == disc.indices[k];
    }
  }

  lemma InitValid(vertexBufferBytes: nat, indexBufferBytes: nat)
    ensures Valid(Init(vertexBufferBytes, indexBufferBytes))
    ensures |Init(vertexBufferBytes, indexBufferBytes).points| == 1
  {
  }

  /** Facts about the cursor disc used below: 14 coordinates, 18 indices, all
      below n + 1. */
  lemma CursorDiscShape(c: Point)
    ensures |CursorDisc(c).vertices| == DISC_FLOATS && |CursorDisc(c).indices| == DISC_INDICES
    ensures forall k :: 0 <= k < DISC_INDICES ==> CursorDisc(c).indices[k] < DISC_VERTICES
  {
  }

  /** `GeometryWellFormed` does not look at the path list. */
  lemma GeometryIgnoresPoints(s: State, t: State)
    requires s.cursor == t.cursor && s.vertices == t.vertices && s.indices == t.indices
    ensures GeometryWellFormed(s) == GeometryWellFormed(t)
  {
  }

  lemma UpdateCursorKeepsValid(s: State, x: real, y: real)
    requires Valid(s)
    ensures Valid(UpdateCursor(s, x, y))
  {
    if |s.indices| == 0 {
      FirstCursorWellFormed(s, x, y);
    } else {
      MovedCursorWellFormed(s, x, y);
    }
  }

  lemma FirstCursorWellFormed(s: State, x: real, y: real)
    requires Valid(s) && |s.indices| == 0
    ensures GeometryWellFormed(UpdateCursor(s, x, y))
  {
    LoneDiscWellFormed(UpdateCursor(s, x, y));
  }

  /** Geometry that is the cursor disc and nothing else is well formed. */
  lemma LoneDiscWellFormed(r: State)
    requires r.vertices == CursorDisc(r.cursor).vertices
    requires r.indices == CursorDisc(r.cursor).indices
    ensures GeometryWellFormed(r)
  {
    var disc := CursorDisc(r.cursor);
    CursorDiscShape(r.cursor);
    assert r.vertices[..DISC_FLOATS] == disc.vertices;
    assert r.indices[..DISC_INDICES] == disc.indices;
    assert |r.vertices| / 2 == DISC_VERTICES;
  }

  lemma MovedCursorWellFormed(s: State, x: real, y: real)
    requires Valid(s) && |s.indices| > 0
    ensures GeometryWellFormed(UpdateCursor(s, x, y))
  {
    var r := UpdateCursor(s, x, y);
    var disc := CursorDisc(r.cursor);
    CursorDiscShape(r.cursor);
    forall k | 0 <= k < |r.indices|
      ensures r.indices[k] < |r.vertices| / 2
    {
      if k < DISC_INDICES {
        assert r.indices[k] == r.indices[..DISC_INDICES][k] == disc.indices[k];
      } else if k < |s.indices| {
        assert r.indices[k] == r.indices[DISC_INDICES..][k - DISC_INDICES]
                            == s.indices[DISC_INDICES..][k - DISC_INDICES] == s.indices[k];
      }
    }
  }

  lemma UpdatePointsKeepsValid(s: State)
    requires Valid(s)
    ensures Valid(UpdatePoints(s))
  {
    var r := UpdatePoints(s);
    if |s.indices| > 0 {
      CursorIsolated(s);
      BoundedAfterPrefix(r.indices, s.indices, |r.vertices| / 2);
      DoubleIsEven(VertexCount(s.points));
    }
  }

  lemma DoubleIsEven(x: nat)
    ensures (2 * x) % 2 == 0
  {
  }

  /** Indices that keep a prefix of indices below n + 1 and bound the rest by
      `limit` are all below `limit`, once `limit` is at least n + 1. */
  lemma BoundedAfterPrefix(indices: seq<nat>, prefix: seq<nat>, limit: nat)
    requires |prefix| >= DISC_INDICES && |indices| >= DISC_INDICES
    requires indices[..DISC_INDICES] == prefix[..DISC_INDICES]
    requires forall k :: 0 <= k < DISC_INDICES ==> prefix[k] < DISC_VERTICES
    requires DISC_VERTICES <= limit
    requires forall k :: DISC_INDICES <= k < |indices| ==> indices[k] < limit
    ensures forall k :: 0 <= k < |indices| ==> indices[k] < limit
  {
    forall k | 0 <= k < DISC_INDICES
      ensures indices[k] < limit
    {
      assert indices[k] == indices[..DISC_INDICES][k];
    }
  }

  lemma PushPointKeepsValid(s: State)
    requires Valid(s)
    ensures Valid(PushPoint(s))
    ensures forall i :: 0 <= i < |PushPoint(s).points| ==> |PushPoint(s).points[i]| > 0
  {
    var last := |s.points| - 1;
    var shapes := s.points[last := s.points[last] + [s.cursor]];
    assert forall i :: 0 <= i < |shapes| ==> |shapes[i]| > 0;
    var t := s.(points := shapes);
    GeometryIgnoresPoints(s, t);
    UpdatePointsKeepsValid(t);
  }

  lemma NewPathKeepsValid(s: State)
    requires Valid(s)
    ensures Valid(NewPath(s))
  {
    GeometryIgnoresPoints(s, NewPath(s));
  }

  lemma DeletePathKeepsValid(s: State)
    requires Valid(s)
    ensures Valid(DeletePath(s))
    ensures |DeletePath(s).points| == if |s.points| == 1 then 1 else |s.points| - 1
  {
    var shapes := RemainingShapes(s.points);
    assert PathsWellFormed(shapes) by {
      if |s.points| > 1 {
        assert forall i :: 0 <= i < |shapes| ==> shapes[i] == s.points[i];
      }
    }
    var t := s.(points := shapes);
    GeometryIgnoresPoints(s, t);
    UpdatePointsKeepsValid(t);
  }

  /** `update_points` reads only the cursor prefix and `points`, so a second call
      changes nothing. */
  lemma UpdatePointsIdempotent(s: State)
    requires |s.indices| == 0 || HasCursorPrefix(s)
    ensures UpdatePoints(UpdatePoints(s)) == UpdatePoints(s)
  {
    if |s.indices| > 0 {
      var r := UpdatePoints(s);
      assert Truncate(r.vertices, DISC_FLOATS) == s.vertices[..DISC_FLOATS];
      assert Truncate(r.indices, DISC_INDICES) == s.indices[..DISC_INDICES];
    }
  }

  /** Every point of every shape is drawn, and nothing else is. */
  lemma {:induction false} FlattenMembers(shapes: seq<Shape>)
    ensures forall p :: p in Flatten(shapes) <==> exists i :: 0 <= i < |shapes| && p in shapes[i]
  {
    if |shapes| > 0 {
      var init := shapes[..|shapes| - 1];
      var last := |shapes| - 1;
      FlattenMembers(init);
      forall p
        ensures p in Flatten(shapes) <==> exists i :: 0 <= i < |shapes| && p in shapes[i]
      {
        if p in Flatten(shapes) && p !in shapes[last] {
          assert p in Flatten(init);
          var i :| 0 <= i < |init| && p in init[i];
          assert p in shapes[i];
        }
        if exists i :: 0 <= i < |shapes| && p in shapes[i] {
          var i :| 0 <= i < |shapes| && p in shapes[i];
          if i < last {
            assert p in init[i];
          }
        }
      }
    }
  }

  lemma {:induction false} FlattenEmptyTail(shapes: seq<Shape>)
    ensures Flatten(shapes + [[]]) == Flatten(shapes)
    ensures Segments(shapes + [[]]) == Segments(shapes)
  {
    assert (shapes + [[]])[..|shapes|] == shapes;
  }

  /** An empty trailing shape contributes no geometry: rebuilding after
      `new_path` gives the arrays rebuilt from the previous shapes. */
  lemma NewPathAddsNoGeometry(s: State)
    requires |s.points| >= 1
    ensures UpdatePoints(NewPath(s)).vertices == UpdatePoints(s).vertices
    ensures UpdatePoints(NewPath(s)).indices == UpdatePoints(s).indices
  {
    if |s.points[|s.points| - 1]| > 0 && |s.indices| > 0 {
      var t := NewPath(s);
      assert t == s.(points := s.points + [[]]);
      var prefix := Mesh(Truncate(s.vertices, DISC_FLOATS), Truncate(s.indices, DISC_INDICES));
      TessellateEmptyTail(prefix, s.points);
      assert Tessellate(prefix, t.points) == Tessellate(prefix, s.points);
    }
  }

  lemma TessellateEmptyTail(prefix: Mesh, shapes: seq<Shape>)
    ensures Tessellate(prefix, shapes + [[]]) == Tessellate(prefix, shapes)
  {
    FlattenEmptyTail(shapes);
    TessellateSameParts(prefix, shapes + [[]], shapes);
  }

  /** The tessellation depends on the path list only through its points and
      its segments. */
  lemma TessellateSameParts(prefix: Mesh, a: seq<Shape>, b: seq<Shape>)
    requires Flatten(a) == Flatten(b) && Segments(a) == Segments(b)
    ensures Tessellate(prefix, a) == Tessellate(prefix, b)
  {
  }

  /** A second `new_path` with no point pushed in between adds nothing: the path
      list never gets two empty shapes in a row from it. */
  lemma NewPathIdempotent(s: State)
    requires |s.points| >= 1
    ensures NewPath(NewPath(s)) == NewPath(s)
  {
  }

  /** `delete_path` on a single shape of two points empties the shape and keeps it. */
  lemma DeleteSoleShapeScenario(s: State)
    requires s.points == [[Point(0.0, 0.0), Point(1.0, 0.0)]]
    ensures DeletePath(s).points == [[]]
  {
  }

  /** Once synced, the vertex count is `VertexCount(points)`, so every index fits in
      a u16 as long as that count does not exceed 65536. */
  lemma IndicesFitU16(s: State)
    requires Valid(s) && Synced(s)
    requires VertexCount(s.points) <= 0x1_0000
    ensures forall k :: 0 <= k < |s.indices| ==> s.indices[k] <= 0xFFFF
  {
    var m := Tessellate(Mesh(s.vertices[..DISC_FLOATS], s.indices[..DISC_INDICES]), s.points);
    assert |s.vertices| / 2 == VertexCount(s.points);
  }

  /** After a sync that gave the index buffer room for every index, `draw`
      issues the cursor range [0, 3n) and the path range [3n, len). */
  lemma DrawAfterSync(s: State)
    requires Valid(s) && |s.indices| > 0
    requires Buffers.Mirrors(s.indexBuffer, s.indices, Buffers.U16_BYTES)
    ensures Draw(s) == [Buffers.DrawIndexed(Buffers.Red, 0, DISC_INDICES),
                        Buffers.DrawIndexed(Buffers.Green, DISC_INDICES, |s.indices|)]
  {
  }
}

=== FILE: rebuild.dfy ===
/**
 The loops of `update_points` (src/ui/ui.rs) written as they stand: a running
 `count` (a u16 in the source, an unbounded natural here) that starts at n + 1 and advances by n + 1 per disc and by 4 per
 quad, with each quad's corners and indices pushed one by one. The loops are
 proved to produce exactly `Tessellation.UpdatePoints`, and the counter to
 equal the number of vertices pushed so far once the 14-float cursor prefix
 is present.
 */
module Rebuild {
  import opened Geometry
  import opened Tessellation

  lemma PrefixStep(shapes: seq<Shape>, i: nat)
    requires i < |shapes|
    ensures Flatten(shapes[..i + 1]) == Flatten(shapes[..i]) + shapes[i]
    ensures Segments(shapes[..i + 1]) == Segments(shapes[..i]) + ShapeSegments(shapes[i])
  {
    assert shapes[..i + 1][..i] == shapes[..i];
  }

  lemma SnocSlice<T>(done: seq<T>, s: seq<T>, j: nat)
    requires j < |s|
    ensures done + s[..j + 1] == (done + s[..j]) + [s[j]]
  {
    assert s[..j + 1] == s[..j] + [s[j]];
  }

  lemma DiscStep(prefix: Mesh, pts: seq<Point>, p: Point)
    ensures Discs(prefix, pts + [p], DISC_VERTICES)
         == FillBufferWithAPoint(Discs(prefix, pts, DISC_VERTICES), 7 * (1 + |pts|), p, RADIUS, SEGMENTS)
  {
    assert (pts + [p])[..|pts|] == pts;
  }

  /** The inner disc loop, over the points of one shape. */
  method ShapeDiscs(ghost prefix: Mesh, ghost done: seq<Point>, shape: Shape, buffer: Mesh, count: nat)
    returns (m: Mesh, count': nat)
    requires buffer == Discs(prefix, done, DISC_VERTICES)
    requires count == 7 * (1 + |done|)
    ensures m == Discs(prefix, done + shape, DISC_VERTICES)
    ensures count' == 7 * (1 + |done + shape|)
  {
    m, count' := buffer, count;
    var j := 0;
    ghost var pts := done;
    assert done + shape[..j] == done;
    while j < |shape|
      invariant 0 <= j <= |shape|
      invariant pts == done + shape[..j]
      invariant m == Discs(prefix, pts, DISC_VERTICES)
      invariant count' == 7 * (1 + |pts|)
    {
      DiscStep(prefix, pts, shape[j]);
      SnocSlice(done, shape, j);
      m := FillBufferWithAPoint(m, count', shape[j], RADIUS, SEGMENTS);
      count' := count' + SEGMENTS + 1;
      pts := pts + [shape[j]];
      j := j + 1;
    }
    assert shape[..j] == shape;
  }

  /** The disc loop: one disc per point of every shape. */
  method DiscLoop(prefix: Mesh, shapes: seq<Shape>) returns (m: Mesh, count: nat)
    ensures m == Discs(prefix, Flatten(shapes), DISC_VERTICES)
    ensures count == 7 * (1 + |Flatten(shapes)|)
  {
    m, count := prefix, SEGMENTS + 1;
    var si := 0;
    ghost var pts: seq<Point> := [];
    assert shapes[..si] == [];
    while si < |shapes|
      invariant 0 <= si <= |shapes|
      invariant pts == Flatten(shapes[..si])
      invariant m == Discs(prefix, pts, DISC_VERTICES)
      invariant count == 7 * (1 + |pts|)
    {
      PrefixStep(shapes, si);
      m, count := ShapeDiscs(prefix, pts, shapes[si], m, count);
      pts := pts + shapes[si];
      si := si + 1;
    }
    assert shapes[..si] == shapes;
  }

  lemma QuadStep(start: Mesh, segs: seq<Segment>, seg: Segment, origin: nat)
    ensures Quads(start, segs + [seg], origin)
         == DrawLine(Quads(start, segs, origin), seg.from, seg.to, RADIUS, origin + 4 * |segs|)
  {
    assert (segs + [seg])[..|segs|] == segs;
  }

  /** The body of the quad loop of `update_points`, which pushes the stroke of
      one pair inline: the same eight coordinates and the same two triangles as
      `draw_line` (src/ui/utils.rs). */
  method PushQuad(m: Mesh, pre: Point, cur: Point, count: nat) returns (m': Mesh)
    ensures m' == DrawLine(m, pre, cur, RADIUS, count)
  {
    var plus := Normal(pre, cur, Plus);
    var minus := Normal(pre, cur, Minus);
    var vertices := m.vertices + [Offset(Sin, plus, RADIUS, pre.x), Offset(Cos, plus, RADIUS, pre.y),
                                  Offset(Sin, minus, RADIUS, pre.x), Offset(Cos, minus, RADIUS, pre.y),
                                  Offset(Sin, plus, RADIUS, cur.x), Offset(Cos, plus, RADIUS, cur.y),
                                  Offset(Sin, minus, RADIUS, cur.x), Offset(Cos, minus, RADIUS, cur.y)];
    var indices := m.indices + [count, count + 1, count + 2]
                             + [count + 1, count + 2, count + 3];
    m' := Mesh(vertices, indices);
  }

  /** One turn of the inner quad loop: the stroke of pair i - 1 of `shape` is the
      next quad of `Quads`, and the segment list grows by that pair. */
  lemma ShapeQuadStep(start: Mesh, origin: nat, done: seq<Segment>, shape: Shape, i: nat, segs: seq<Segment>,
                      m: Mesh, count: nat, m': Mesh)
    requires 1 <= i < |shape|
    requires segs == done + ShapeSegments(shape)[..i - 1]
    requires m == Quads(start, segs, origin)
    requires count == origin + 4 * |segs|
    requires m' == DrawLine(m, shape[i - 1], shape[i], RADIUS, count)
    ensures segs + [Segment(shape[i - 1], shape[i])] == done + ShapeSegments(shape)[..i]
    ensures m' == Quads(start, segs + [Segment(shape[i - 1], shape[i])], origin)
  {
    var pairs := ShapeSegments(shape);
    assert pairs[i - 1] == Segment(shape[i - 1], shape[i]);
    SnocSlice(done, pairs, i - 1);
    QuadStep(start, segs, pairs[i - 1], origin);
  }

  /** The inner quad loop, over the consecutive pairs of one shape, with the
      stroke's corners and indices pushed inline as the loop body does. */
  method ShapeQuads(ghost start: Mesh, ghost origin: nat, ghost done: seq<Segment>, shape: Shape, buffer: Mesh, count: nat)
    returns (m: Mesh, count': nat)
    requires buffer == Quads(start, done, origin)
    requires count == origin + 4 * |done|
    ensures m == Quads(start, done + ShapeSegments(shape), origin)
    ensures count' == origin + 4 * |done + ShapeSegments(shape)|
  {
    m, count' := buffer, count;
    var i := 1;
    ghost var segs := done;
    assert done + ShapeSegments(shape)[..i - 1] == done;
    while i < |shape|
      invariant 1 <= i <= |ShapeSegments(shape)| + 1
      invariant segs == done + ShapeSegments(shape)[..i - 1]
      invariant m == Quads(start, segs, origin)
      invariant count' == origin + 4 * |segs|
    {
      ghost var before := m;
      m := PushQuad(m, shape[i - 1], shape[i], count');
      ShapeQuadStep(start, origin, done, shape, i, segs, before, count', m);
      count' := count' + 4;
      segs := segs + [Segment(shape[i - 1], shape[i])];
      i := i + 1;
    }
    assert ShapeSegments(shape)[..i - 1] == ShapeSegments(shape);
  }

  /** The quad loop: one stroke quad per consecutive pair inside every shape. */
  method QuadLoop(start: Mesh, shapes: seq<Shape>, origin: nat) returns (m: Mesh, count: nat)
    ensures m == Quads(start, Segments(shapes), origin)
    ensures count == origin + 4 * |Segments(shapes)|
  {
    m, count := start, origin;
    var si := 0;
    ghost var segs: seq<Segment> := [];
    assert shapes[..si] == [];
    while si < |shapes|
      invariant 0 <= si <= |shapes|
      invariant segs == Segments(shapes[..si])
      invariant m == Quads(start, segs, origin)
      invariant count == origin + 4 * |segs|
    {
      PrefixStep(shapes, si);
      m, count := ShapeQuads(start, origin, segs, shapes[si], m, count);
      segs := segs + ShapeSegments(shapes[si]);
      si := si + 1;
    }
    assert shapes[..si] == shapes;
  }

  /** `update_points` as written; `count` is the counter's final value, which is
      the number of vertices whenever the cursor prefix was complete. */
  method UpdatePointsLoop(s: State) returns (vertices: seq<Coord>, indices: seq<nat>, count: nat)
    ensures vertices == UpdatePoints(s).vertices && indices == UpdatePoints(s).indices
    ensures |s.indices| > 0 && |s.vertices| >= DISC_FLOATS ==> 2 * count == |vertices|
  {
    if |s.indices| == 0 {
      return s.vertices, s.indices, 0;
    }
    var prefix := Mesh(Truncate(s.vertices, DISC_FLOATS), Truncate(s.indices, DISC_INDICES));
    var discs, next := DiscLoop(prefix, s.points);
    var m;
    m, count := QuadLoop(discs, s.points, next);
    ghost var tessellated := Tessellate(prefix, s.points);
    assert m == tessellated;
    assert count == VertexCount(s.points);
    vertices, indices := m.vertices, m.indices;
    if |indices| % 2 == 1 {
      indices := indices + [0];
    }
    assert indices == PadEven(tessellated.indices);
  }
}

=== FILE: tessellation.dfy ===
/**
 The path model and tessellation bookkeeping of src/ui/ui.rs.

 `points` is a list of shapes, each a list of clicked points; the last shape is
 the one being drawn. `vertices` / `indices` hold the triangle geometry: a
 cursor-disc prefix of 2n+2 coordinates and 3n indices (n = `SEGMENTS`),
 followed by one disc per point and one stroke quad per consecutive pair of
 points inside a shape.
 */
module Tessellation {
  import opened Geometry
  import Buffers

  /** `segments_count` and `radius`, fixed by `new` and never changed. */
  const SEGMENTS: nat := 6
  const RADIUS: real := 0.01

  /** Size of one disc: n + 1 vertices, 2n + 2 coordinates, 3n indices, that is
      7, 14 and 18. Products with these sizes are written below with the literal
      values, which keeps the arithmetic linear for the verifier. */
  const DISC_VERTICES: nat := SEGMENTS + 1
  const DISC_FLOATS: nat := 2 * SEGMENTS + 2
  const DISC_INDICES: nat := 3 * SEGMENTS

  type Shape = seq<Point>

  datatype State = State(
    cursor: Point,
    points: seq<Shape>,
    vertices: seq<Coord>,
    indices: seq<nat>,
    vertexBuffer: Buffers.Buffer<Coord>,
    indexBuffer: Buffers.Buffer<nat>)

  // ---------------------------------------------------------------------------
  // Views of the path list
  // ---------------------------------------------------------------------------

  /** All points, shape after shape, in drawing order. */
  function Flatten(shapes: seq<Shape>): seq<Point>
  {
    if |shapes| == 0 then []
    else Flatten(shapes[..|shapes| - 1]) + shapes[|shapes| - 1]
  }

  /** The consecutive pairs of one shape. */
  function ShapeSegments(shape: Shape): (segs: seq<Segment>)
    ensures |segs| == if |shape| == 0 then 0 else |shape| - 1
    ensures forall i :: 0 <= i < |segs| ==> segs[i] == Segment(shape[i], shape[i + 1])
  {
    if |shape| == 0 then []
    else seq(|shape| - 1, i requires 0 <= i < |shape| - 1 => Segment(shape[i], shape[i + 1]))
  }

  function NonEmptyShapes(shapes: seq<Shape>): nat
  {
    if |shapes| == 0 then 0
    else NonEmptyShapes(shapes[..|shapes| - 1]) + (if |shapes[|shapes| - 1]| == 0 then 0 else 1)
  }

  /** All consecutive pairs, shape after shape; a pair never spans two shapes,
      so a shape of k > 0 points contributes k - 1 of them. */
  function Segments(shapes: seq<Shape>): (segs: seq<Segment>)
    ensures |segs| + NonEmptyShapes(shapes) == |Flatten(shapes)|
  {
    if |shapes| == 0 then []
    else Segments(shapes[..|shapes| - 1]) + ShapeSegments(shapes[|shapes| - 1])
  }

  // ---------------------------------------------------------------------------
  // Geometry of the path list
  // ---------------------------------------------------------------------------

  function CursorDisc(cursor: Point): Mesh
  {
    FillBufferWithAPoint(Empty, 0, cursor, RADIUS, SEGMENTS)
  }

  /** The disc loop of `update_points`: one disc per point, the k-th one with its
      indices starting at origin + k * (n + 1). */
  function Discs(buffer: Mesh, pts: seq<Point>, origin: nat): (m: Mesh)
    ensures Extends(buffer, m)
    ensures |m.vertices| == |buffer.vertices| + 14 * |pts|
    ensures |m.indices| == |buffer.indices| + 18 * |pts|
    ensures forall k :: |buffer.indices| <= k < |m.indices| ==>
              origin <= m.indices[k] < origin + 7 * |pts|
  {
    if |pts| == 0 then buffer
    else
      var before := Discs(buffer, pts[..|pts| - 1], origin);
      FillBufferWithAPoint(before, origin + 7 * (|pts| - 1), pts[|pts| - 1], RADIUS, SEGMENTS)
  }

  /** The quad loop of `update_points`: one stroke quad per segment, the k-th one
      with its indices starting at origin + 4k. */
  function Quads(buffer: Mesh, segs: seq<Segment>, origin: nat): (m: Mesh)
    ensures Extends(buffer, m)
    ensures |m.vertices| == |buffer.vertices| + 8 * |segs|
    ensures |m.indices| == |buffer.indices| + 6 * |segs|
    ensures forall k :: |buffer.indices| <= k < |m.indices| ==> origin <= m.indices[k] < origin + 4 * |segs|
  {
    if |segs| == 0 then buffer
    else
      var before := Quads(buffer, segs[..|segs| - 1], origin);
      var seg := segs[|segs| - 1];
      DrawLine(before, seg.from, seg.to, RADIUS, origin + 4 * (|segs| - 1))
  }

  /** Number of vertices once the path list is tessellated behind the cursor disc. */
  function VertexCount(shapes: seq<Shape>): nat
  {
    7 * (1 + |Flatten(shapes)|) + 4 * |Segments(shapes)|
  }

  /** Everything `update_points` appends after the cursor prefix, counting
      vertices from n + 1 on: the discs, then the quads. */
  function Tessellate(prefix: Mesh, shapes: seq<Shape>): (m: Mesh)
    ensures Extends(prefix, m)
    ensures |m.vertices| == |prefix.vertices| + 2 * (VertexCount(shapes) - DISC_VERTICES)
    ensures forall k :: |prefix.indices| <= k < |m.indices| ==>
              DISC_VERTICES <= m.indices[k] < VertexCount(shapes)
  {
    TessellateParts(prefix, Flatten(shapes), Segments(shapes))
  }

  /** One disc per point from vertex n + 1 on, then one quad per segment after
      the last disc. */
  function TessellateParts(prefix: Mesh, pts: seq<Point>, segs: seq<Segment>): (m: Mesh)
    ensures Extends(prefix, m)
    ensures |m.vertices| == |prefix.vertices| + 2 * (7 * |pts| + 4 * |segs|)
    ensures forall k :: |prefix.indices| <= k < |m.indices| ==>
              DISC_VERTICES <= m.indices[k] < 7 * (1 + |pts|) + 4 * |segs|
  {
    var discs := Discs(prefix, pts, DISC_VERTICES);
    var m := Quads(discs, segs, 7 * (1 + |pts|));
    StackedBounds(prefix, discs, m, |pts|, |segs|);
    m
  }

  /** Discs stacked on the prefix, then quads stacked on the discs: the sizes
      add up and every appended index lies between the first disc's centre and
      the last vertex. */
  lemma StackedBounds(prefix: Mesh, discs: Mesh, m: Mesh, discCount: nat, quadCount: nat)
    requires Extends(prefix, discs) && Extends(discs, m)
    requires |discs.vertices| == |prefix.vertices| + 14 * discCount
    requires |m.vertices| == |discs.vertices| + 8 * quadCount
    requires forall k :: |prefix.indices| <= k < |discs.indices| ==> 7 <= discs.indices[k] < 7 + 7 * discCount
    requires forall k :: |discs.indices| <= k < |m.indices| ==>
               7 * (1 + discCount) <= m.indices[k] < 7 * (1 + discCount) + 4 * quadCount
    ensures Extends(prefix, m)
    ensures |m.vertices| == |prefix.vertices| + 2 * (7 * discCount + 4 * quadCount)
    ensures forall k :: |prefix.indices| <= k < |m.indices| ==>
              7 <= m.indices[k] < 7 * (1 + discCount) + 4 * quadCount
  {
    forall k | |prefix.indices| <= k < |m.indices|
      ensures 7 <= m.indices[k] < 7 * (1 + discCount) + 4 * quadCount
    {
      if k < |discs.indices| {
        assert m.indices[k] == discs.indices[k];
      }
    }
  }

  function Truncate<T>(s: seq<T>, len: nat): (r: seq<T>)
    ensures |r| == if |s| <= len then |s| else len
    ensures r <= s
  {
    if |s| <= len then s else s[..len]
  }

  /** Appends a single 0 when the index count is odd. */
  function PadEven(indices: seq<nat>): (r: seq<nat>)
    ensures |r| % 2 == 0
    ensures indices <= r && |r| <= |indices| + 1
    ensures forall k :: |indices| <= k < |r| ==> r[k] == 0
  {
    if |indices| % 2 == 1 then indices + [0] else indices
  }

  // ---------------------------------------------------------------------------
  // Invariants
  // ---------------------------------------------------------------------------

  /** The path list is never empty and only its last shape may be empty. */
  predicate PathsWellFormed(shapes: seq<Shape>)
  {
    |shapes| >= 1 && forall i :: 0 <= i < |shapes| - 1 ==> |shapes[i]| > 0
  }

  predicate HasCursorPrefix(s: State)
  {
    |s.vertices| >= DISC_FLOATS && |s.indices| >= DISC_INDICES
  }

  /** The geometry is the cursor disc at the current cursor, then anything whose
      indices stay below the vertex count; both arrays have even length. */
  predicate GeometryWellFormed(s: State)
  {
    && HasCursorPrefix(s)
    && |s.vertices| % 2 == 0
    && |s.indices| % 2 == 0
    && s.vertices[..DISC_FLOATS] == CursorDisc(s.cursor).vertices
    && s.indices[..DISC_INDICES] == CursorDisc(s.cursor).indices
    && forall k :: 0 <= k < |s.indices| ==> s.indices[k] < |s.vertices| / 2
  }

  predicate Valid(s: State)
  {
    && PathsWellFormed(s.points)
    && (|s.vertices| == 0 <==> |s.indices| == 0)
    && (|s.indices| > 0 ==> GeometryWellFormed(s))
  }

  /** The geometry after the cursor prefix is exactly the tessellation of `points`. */
  predicate Synced(s: State)
  {
    && HasCursorPrefix(s)
    && var m := Tessellate(Mesh(s.vertices[..DISC_FLOATS], s.indices[..DISC_INDICES]), s.points);
       s.vertices == m.vertices && s.indices == PadEven(m.indices)
  }

  // ---------------------------------------------------------------------------
  // Operations
  // ---------------------------------------------------------------------------

  /** `new`: cursor at the origin, one empty shape, no geometry, and buffers the
      device created from empty contents. */
  function Init(vertexBufferBytes: nat, indexBufferBytes: nat): (s: State)
    ensures Valid(s)
    ensures s.points == [[]] && s.vertices == [] && s.indices == []
  {
    State(Point(0.0, 0.0), [[]], [], [],
          Buffers.Buffer(vertexBufferBytes, []), Buffers.Buffer(indexBufferBytes, []))
  }

  /** `update_points`: nothing while there is no geometry yet; otherwise keep the
      cursor prefix and rebuild everything after it from `points`. */
  function UpdatePoints(s: State): (r: State)
    ensures r.cursor == s.cursor && r.points == s.points
    ensures r.vertexBuffer == s.vertexBuffer && r.indexBuffer == s.indexBuffer
    ensures |s.indices| == 0 ==> r == s
    ensures |s.indices| > 0 ==> |r.indices| % 2 == 0
    ensures |s.indices| > 0 && HasCursorPrefix(s) ==>
              && Synced(r)
              && r.vertices[..DISC_FLOATS] == s.vertices[..DISC_FLOATS]
              && r.indices[..DISC_INDICES] == s.indices[..DISC_INDICES]
              && |r.vertices| == 2 * VertexCount(s.points)
              && forall k :: DISC_INDICES <= k < |r.indices| ==> r.indices[k] < |r.vertices| / 2
  {
    if |s.indices| == 0 then s
    else
      var prefix := Mesh(Truncate(s.vertices, DISC_FLOATS), Truncate(s.indices, DISC_INDICES));
      var m := Tessellate(prefix, s.points);
      var r := s.(vertices := m.vertices, indices := PadEven(m.indices));
      assert HasCursorPrefix(s) ==>
        r.vertices[..DISC_FLOATS] == prefix.vertices && r.indices[..DISC_INDICES] == prefix.indices;
      r
  }

  /** `update_cursor`: move the cursor and write its disc. With no geometry yet
      the disc is appended; otherwise it overwrites the first 2n+2 coordinates and
      3n indices in place (the slice copy needs that many to be present) and
      nothing after them changes. */
  function UpdateCursor(s: State, x: real, y: real): (r: State)
    requires |s.indices| == 0 || HasCursorPrefix(s)
    ensures r.cursor == Point(x, y) && r.points == s.points
    ensures r.vertexBuffer == s.vertexBuffer && r.indexBuffer == s.indexBuffer
    ensures |r.indices| % 2 == 0
    ensures HasCursorPrefix(r)
    ensures |s.indices| == 0 ==> r.vertices == s.vertices + CursorDisc(r.cursor).vertices
    ensures |s.indices| == 0 ==> s.indices + CursorDisc(r.cursor).indices <= r.indices
    ensures |s.indices| == 0 && |s.vertices| == 0 ==>
              r.vertices == CursorDisc(r.cursor).vertices && r.indices == CursorDisc(r.cursor).indices
    ensures |s.indices| > 0 ==>
              && |r.vertices| == |s.vertices|
              && r.vertices[..DISC_FLOATS] == CursorDisc(r.cursor).vertices
              && r.vertices[DISC_FLOATS..] == s.vertices[DISC_FLOATS..]
              && r.indices[..DISC_INDICES] == CursorDisc(r.cursor).indices
              && s.indices[DISC_INDICES..] <= r.indices[DISC_INDICES..]
              && |r.indices| <= |s.indices| + 1
    ensures |s.indices| == 0 ==> |r.indices| <= |s.indices| + DISC_INDICES + 1
    ensures forall k :: |s.indices| + (if |s.indices| == 0 then DISC_INDICES else 0) <= k < |r.indices| ==>
              r.indices[k] == 0
  {
    var disc := CursorDisc(Point(x, y));
    var m := if |s.indices| == 0 then Concat(Mesh(s.vertices, s.indices), disc)
             else Mesh(disc.vertices + s.vertices[DISC_FLOATS..], disc.indices + s.indices[DISC_INDICES..]);
    var r := s.(cursor := Point(x, y), vertices := m.vertices, indices := PadEven(m.indices));
    assert |s.indices| > 0 ==> r.vertices[..DISC_FLOATS] == disc.vertices && r.indices[..DISC_INDICES] == disc.indices;
    assert |s.indices| == 0 ==> |m.indices| % 2 == |s.indices| % 2;
    r
  }

  /** `push_point`: append the cursor to the last shape (the unwrap of the last
      shape needs one), then rebuild the geometry. */
  function PushPoint(s: State): (r: State)
    requires |s.points| >= 1
    ensures |r.points| == |s.points|
    ensures r.points[..|s.points| - 1] == s.points[..|s.points| - 1]
    ensures r.points[|s.points| - 1] == s.points[|s.points| - 1] + [s.cursor]
    ensures r.cursor == s.cursor
    ensures |s.indices| == 0 ==> r.vertices == s.vertices && r.indices == s.indices
    ensures |s.indices| > 0 && HasCursorPrefix(s) ==> Synced(r)
    ensures r.vertexBuffer == s.vertexBuffer && r.indexBuffer == s.indexBuffer
  {
    var last := |s.points| - 1;
    UpdatePoints(s.(points := s.points[last := s.points[last] + [s.cursor]]))
  }

  /** `new_path`: start a new empty shape unless the last one is still empty.
      The geometry is left as it is. */
  function NewPath(s: State): (r: State)
    requires |s.points| >= 1
    ensures s.points <= r.points
    ensures |s.points[|s.points| - 1]| == 0 ==> r == s
    ensures |s.points[|s.points| - 1]| > 0 ==> r.points == s.points + [[]]
    ensures r.vertices == s.vertices && r.indices == s.indices && r.cursor == s.cursor
    ensures r.vertexBuffer == s.vertexBuffer && r.indexBuffer == s.indexBuffer
  {
    if |s.points[|s.points| - 1]| == 0 then s
    else s.(points := s.points + [[]])
  }

  /** The path list after `delete_path`: the sole shape is truncated to nothing,
      otherwise the last shape is popped (a pop on no shapes does nothing). */
  function RemainingShapes(shapes: seq<Shape>): (r: seq<Shape>)
    ensures |shapes| == 1 ==> r == [[]]
    ensures |shapes| > 1 ==> r == shapes[..|shapes| - 1]
    ensures |shapes| == 0 ==> r == []
  {
    if |shapes| == 1 then [shapes[0][..0]]
    else if |shapes| == 0 then shapes
    else shapes[..|shapes| - 1]
  }

  /** `delete_path`: empty the sole shape, or drop the last one; then rebuild. */
  function DeletePath(s: State): (r: State)
    ensures r.points == RemainingShapes(s.points)
    ensures r.cursor == s.cursor
    ensures |s.indices| == 0 ==> r.vertices == s.vertices && r.indices == s.indices
    ensures |s.indices| > 0 && HasCursorPrefix(s) ==> Synced(r)
    ensures r.vertexBuffer == s.vertexBuffer && r.indexBuffer == s.indexBuffer
  {
    UpdatePoints(s.(points := RemainingShapes(s.points)))
  }

  /** `check_buffer`: make the vertex buffer large enough for the vertex bytes. */
  function CheckBuffer(s: State, createdBytes: nat): (r: State)
    requires Buffers.ByteLength(s.vertices, Buffers.F32_BYTES) <= createdBytes
    ensures r == s.(vertexBuffer := r.vertexBuffer)
    ensures Buffers.ByteLength(s.vertices, Buffers.F32_BYTES) <= r.vertexBuffer.size
    ensures r.vertexBuffer.size >= s.vertexBuffer.size
  {
    s.(vertexBuffer := Buffers.Reserve(s.vertexBuffer, s.vertices, Buffers.F32_BYTES, createdBytes))
  }

  /** `check_index_buffer`: make the index buffer large enough for the index bytes. */
  function CheckIndexBuffer(s: State, createdBytes: nat): (r: State)
    requires Buffers.ByteLength(s.indices, Buffers.U16_BYTES) <= createdBytes
    ensures r == s.(indexBuffer := r.indexBuffer)
    ensures Buffers.ByteLength(s.indices, Buffers.U16_BYTES) <= r.indexBuffer.size
    ensures r.indexBuffer.size >= s.indexBuffer.size
  {
    s.(indexBuffer := Buffers.Reserve(s.indexBuffer, s.indices, Buffers.U16_BYTES, createdBytes))
  }

  /** The draw calls `draw` issues: none while the index buffer holds no whole
      index, otherwise the cursor disc's 3n indices, then the path's indices up
      to what the buffer holds. */
  function Draw(s: State): (calls: seq<Buffers.DrawCall>)
    ensures calls == [] <==> s.indexBuffer.size < Buffers.U16_BYTES
    ensures calls != [] ==> calls == [Buffers.DrawIndexed(Buffers.Red, 0, DISC_INDICES),
                                      Buffers.DrawIndexed(Buffers.Green, DISC_INDICES,
                                                          Buffers.Min(|s.indices|, s.indexBuffer.size / Buffers.U16_BYTES))]
  {
    Buffers.DrawCalls(|s.indices|, s.indexBuffer.size, DISC_INDICES)
  }
}

=== FILE: ui.dfy ===
/**
 The `ui::State` wrapper of src/ui/mod.rs: it owns the tessellation state and
 the aspect ratio, maps pointer pixels to normalised device coordinates, syncs
 the arrays into the GPU buffers, and forwards path edits. Pipeline, uniforms,
 text and the gallery dialog are not part of this model.
 */
module Ui {
  import opened Geometry
  import Tessellation
  import Buffers
  import PathInvariants

  datatype State = State(ui: Tessellation.State, ratio: real)

  /** `new`: a fresh tessellation state and a 16:9 aspect ratio. */
  function Init(vertexBufferBytes: nat, indexBufferBytes: nat): (u: State)
    ensures u.ratio == 16.0 / 9.0
    ensures Tessellation.Valid(u.ui) && u.ui.points == [[]]
  {
    State(Tessellation.Init(vertexBufferBytes, indexBufferBytes), 16.0 / 9.0)
  }

  /** `resize_view`: the ratio becomes width / height. */
  function ResizeView(u: State, width: nat, height: nat): (r: State)
    requires height > 0
    ensures r.ui == u.ui
    ensures r.ratio * (height as real) == width as real
  {
    u.(ratio := (width as real) / (height as real))
  }

  /** Pixel (x, y) of a width × height surface to device coordinates: x spans
      [-ratio, ratio] left to right, y spans [1, -1] top to bottom. */
  function PixelToDevice(width: nat, height: nat, ratio: real, x: real, y: real): (p: Point)
    requires width > 0 && height > 0
    ensures p.y == 1.0 <==> y == 0.0
    ensures p.y == -1.0 <==> y == height as real
    ensures -1.0 <= p.y <= 1.0 <==> 0.0 <= y <= height as real
    ensures x == 0.0 ==> p.x == -ratio
    ensures x == width as real ==> p.x == ratio
  {
    var w := width as real;
    var h := height as real;
    UnitScale(x, w);
    UnitScale(y, h);
    Point((x / w * 2.0 - 1.0) * ratio, 1.0 - y / h * 2.0)
  }

  /** Dividing by a positive extent maps [0, d] onto [0, 1], 0 to 0 and d to 1. */
  lemma UnitScale(a: real, d: real)
    requires d > 0.0
    ensures a / d * d == a
    ensures a / d == 0.0 <==> a == 0.0
    ensures a / d == 1.0 <==> a == d
    ensures 0.0 <= a / d <= 1.0 <==> 0.0 <= a <= d
  {
    var u := a / d;
    assert u * d == a;
    if 0.0 <= u {
      assert 0.0 <= u * d;
    }
    if u <= 1.0 {
      assert u * d <= d;
    }
    if 0.0 <= a {
      assert 0.0 <= u;
    }
    if a <= d {
      assert u <= 1.0;
    }
  }

  /** The inverse mapping, defined wherever the ratio is not zero. */
  function DeviceToPixel(width: nat, height: nat, ratio: real, p: Point): (pixel: (real, real))
    requires ratio != 0.0
  {
    ((p.x / ratio + 1.0) / 2.0 * (width as real), (1.0 - p.y) / 2.0 * (height as real))
  }

  lemma PixelRoundTrip(width: nat, height: nat, ratio: real, x: real, y: real)
    requires width > 0 && height > 0 && ratio != 0.0
    ensures DeviceToPixel(width, height, ratio, PixelToDevice(width, height, ratio, x, y)) == (x, y)
  {
    var w := width as real;
    var h := height as real;
    var p := PixelToDevice(width, height, ratio, x, y);
    var t := x / w * 2.0 - 1.0;
    assert p.x == t * ratio;
    assert p.x / ratio == t;
    assert (p.x / ratio + 1.0) / 2.0 == x / w;
    assert (1.0 - p.y) / 2.0 == y / h;
    UnitScale(x, w);
    UnitScale(y, h);
    var q := DeviceToPixel(width, height, ratio, p);
    assert q.0 == x / w * w;
    assert q.1 == y / h * h;
  }

  /** `update_cursor`: map the pixel and move the tessellation's cursor there.
      The wrapper also hands over the ratio, which the tessellation's
      `update_cursor` does not take; the model drops it. */
  function UpdateCursor(u: State, width: nat, height: nat, x: real, y: real): (r: State)
    requires width > 0 && height > 0
    requires |u.ui.indices| == 0 || Tessellation.HasCursorPrefix(u.ui)
    ensures r.ratio == u.ratio && r.ui.points == u.ui.points
    ensures r.ui.cursor == PixelToDevice(width, height, u.ratio, x, y)
    ensures Tessellation.Valid(u.ui) ==> Tessellation.Valid(r.ui)
    ensures r.ui.vertexBuffer == u.ui.vertexBuffer && r.ui.indexBuffer == u.ui.indexBuffer
    ensures var p := PixelToDevice(width, height, u.ratio, x, y);
            r == u.(ui := Tessellation.UpdateCursor(u.ui, p.x, p.y))
    ensures |u.ui.indices| > 0 ==>
              && r.ui.vertices[Tessellation.DISC_FLOATS..] == u.ui.vertices[Tessellation.DISC_FLOATS..]
              && u.ui.indices[Tessellation.DISC_INDICES..] <= r.ui.indices[Tessellation.DISC_INDICES..]
  {
    var p := PixelToDevice(width, height, u.ratio, x, y);
    var r := u.(ui := Tessellation.UpdateCursor(u.ui, p.x, p.y));
    assert Tessellation.Valid(u.ui) ==> Tessellation.Valid(r.ui) by {
      if Tessellation.Valid(u.ui) {
        PathInvariants.UpdateCursorKeepsValid(u.ui, p.x, p.y);
      }
    }
    r
  }

  /** `new_path`: the wrapper hands over the fill flag, which the tessellation's
      `new_path` does not take, so it has no effect; the geometry is rebuilt
      right after. */
  function NewPath(u: State, fill: bool): (r: State)
    requires |u.ui.points| >= 1
    ensures r.ratio == u.ratio
    ensures r.ui.points == Tessellation.NewPath(u.ui).points
    ensures r.ui.cursor == u.ui.cursor
    ensures r.ui.vertexBuffer == u.ui.vertexBuffer && r.ui.indexBuffer == u.ui.indexBuffer
    ensures r.ui.vertices == Tessellation.UpdatePoints(u.ui).vertices
    ensures r.ui.indices == Tessellation.UpdatePoints(u.ui).indices
    ensures Tessellation.Valid(u.ui) ==> Tessellation.Valid(r.ui)
  {
    var r := u.(ui := Tessellation.UpdatePoints(Tessellation.NewPath(u.ui)));
    PathInvariants.NewPathAddsNoGeometry(u.ui);
    assert Tessellation.Valid(u.ui) ==> Tessellation.Valid(r.ui) by {
      if Tessellation.Valid(u.ui) {
        PathInvariants.NewPathKeepsValid(u.ui);
        PathInvariants.UpdatePointsKeepsValid(Tessellation.NewPath(u.ui));
      }
    }
    r
  }

  /** `delete_path`: forwarded; the rebuild happens inside. */
  function DeletePath(u: State): (r: State)
    ensures r.ratio == u.ratio && r.ui == Tessellation.DeletePath(u.ui)
    ensures Tessellation.Valid(u.ui) ==> Tessellation.Valid(r.ui)
  {
    var r := u.(ui := Tessellation.DeletePath(u.ui));
    assert Tessellation.Valid(u.ui) ==> Tessellation.Valid(r.ui) by {
      if Tessellation.Valid(u.ui) {
        PathInvariants.DeletePathKeepsValid(u.ui);
      }
    }
    r
  }

  /** `push_point`: forwarded; the rebuild happens inside. */
  function PushPoint(u: State): (r: State)
    requires |u.ui.points| >= 1
    ensures r.ratio == u.ratio && r.ui == Tessellation.PushPoint(u.ui)
    ensures Tessellation.Valid(u.ui) ==> Tessellation.Valid(r.ui)
  {
    var r := u.(ui := Tessellation.PushPoint(u.ui));
    assert Tessellation.Valid(u.ui) ==> Tessellation.Valid(r.ui) by {
      if Tessellation.Valid(u.ui) {
        PathInvariants.PushPointKeepsValid(u.ui);
      }
    }
    r
  }

  /** `update` over the corrected keep-or-replace test (`Buffers.Reserve`): check
      the vertex buffer, write the vertex bytes at offset 0, check
      the index buffer, write the index bytes at offset 0. Each check runs before
      its write, so each write lands in a buffer large enough for it; afterwards
      both buffers start with the current arrays. `createdVertexBytes` and
      `createdIndexBytes` are the sizes the device gives a buffer it has to
      create, at least the contents' length. */
  function Update(u: State, createdVertexBytes: nat, createdIndexBytes: nat): (r: State)
    requires Buffers.ByteLength(u.ui.vertices, Buffers.F32_BYTES) <= createdVertexBytes
    requires Buffers.ByteLength(u.ui.indices, Buffers.U16_BYTES) <= createdIndexBytes
    ensures r.ratio == u.ratio
    ensures r.ui == u.ui.(vertexBuffer := r.ui.vertexBuffer, indexBuffer := r.ui.indexBuffer)
    ensures Buffers.Mirrors(r.ui.vertexBuffer, u.ui.vertices, Buffers.F32_BYTES)
    ensures Buffers.Mirrors(r.ui.indexBuffer, u.ui.indices, Buffers.U16_BYTES)
    ensures r.ui.vertexBuffer.size >= u.ui.vertexBuffer.size
    ensures r.ui.indexBuffer.size >= u.ui.indexBuffer.size
  {
    var a := Tessellation.CheckBuffer(u.ui, createdVertexBytes);
    var b := a.(vertexBuffer := Buffers.Write(a.vertexBuffer, a.vertices, Buffers.F32_BYTES));
    var c := Tessellation.CheckIndexBuffer(b, createdIndexBytes);
    var d := c.(indexBuffer := Buffers.Write(c.indexBuffer, c.indices, Buffers.U16_BYTES));
    u.(ui := d)
  }

  /** `update` with the keep-or-replace test as written (`Buffers.ReserveAsWritten`).
      Each write still lands in a buffer large enough for it and both buffers
      start with the current arrays, but a buffer may be replaced by a smaller
      one (`Buffers.AsWrittenShrinksRoomyBuffer`). */
  function UpdateAsWritten(u: State, createdVertexBytes: nat, createdIndexBytes: nat): (r: State)
    requires Buffers.ByteLength(u.ui.vertices, Buffers.F32_BYTES) <= createdVertexBytes
    requires Buffers.ByteLength(u.ui.indices, Buffers.U16_BYTES) <= createdIndexBytes
    ensures r.ratio == u.ratio
    ensures r.ui == u.ui.(vertexBuffer := r.ui.vertexBuffer, indexBuffer := r.ui.indexBuffer)
    ensures Buffers.Mirrors(r.ui.vertexBuffer, u.ui.vertices, Buffers.F32_BYTES)
    ensures Buffers.Mirrors(r.ui.indexBuffer, u.ui.indices, Buffers.U16_BYTES)
  {
    var vertexBuffer := Buffers.ReserveAsWritten(u.ui.vertexBuffer, u.ui.vertices, Buffers.F32_BYTES, createdVertexBytes);
    var a := u.ui.(vertexBuffer := Buffers.Write(vertexBuffer, u.ui.vertices, Buffers.F32_BYTES));
    var indexBuffer := Buffers.ReserveAsWritten(a.indexBuffer, a.indices, Buffers.U16_BYTES, createdIndexBytes);
    var b := a.(indexBuffer := Buffers.Write(indexBuffer, a.indices, Buffers.U16_BYTES));
    u.(ui := b)
  }
}
